=== FILE: README.md ===
# Nucleus mechanics of DrosoGen, modelled in Dafny

This project models the per-nucleus mechanics engine of DrosoGen's
`NucleusAgent`. A nucleus is a chain of spheres, each a centre and a radius,
and it is held in two copies. The internal geometry (`futureGeometry`) is the
one the forces move. The published geometry (`geometryAlias`) is what other
agents see: the same centres, every radius grown by the cytoplasm width.
Every sphere has a velocity and a weight. The nucleus also holds a desired
velocity, a persistence time and a transient force ledger. Each ledger entry
is a vector, the point it acts at, the index (`hint`) of the sphere it acts
on, and a type tag.

One simulation round runs five phases, each modelled as a pure function from
agent state to agent state:

1. `advanceAndBuildIntForces` (`NucleusAgent.Advance`) appends one driving
   force per sphere and advances the local clock by `incrTime`.
2. `adjustGeometryByForces` (`NucleusAgent.Integrate`) folds the ledger into
   one net force per sphere. It then applies `a = F / w`, `v += dt a` and
   `c += dt v`, and empties the ledger.
3. `collectExtForces` (`NucleusAgent.CollectExtForces`) works in four steps:
   - it appends friction;
   - it files the neighbours' proximity pairs by the first letter of the
     neighbour's type name ('n' nucleus, 'y' yolk, anything else a guiding
     track);
   - it turns pairs against nuclei into repulsion, or into body and sliding
     forces;
   - it turns yolk pairs of the first sphere into a rigid hinter attraction.
     Track pairs are filed but exert no force.
4. `adjustGeometryByForces` integrates again.
5. `publishGeometry` (`NucleusAgent.Publish`) copies the centres and
   inflates the radii.

`NucleusAgent.DrivePhase` groups phases one and two and
`NucleusAgent.ContactPhase` groups phases three and four. `NucleusAgent.Round`
chains them and then publishes.

All arithmetic is over Dafny `real`. Three pieces of code outside `NucleusAgent.h`
are not part of the model, and each is represented as follows:

- `std::exp` is a parameter `exp: real -> real`. Lemmas that need it to be
  positive and strictly increasing ask for that through `ExpLike`.
- `changeToUnitOrZero` is a parameter `unit: Vec3 -> Vec3`. Lemmas that need
  its contract ask for it through `UnitOrZeroMap`: zero stays zero, and any
  other vector `w` becomes the vector of length one on the line of `w` that
  points the same way as `w`.
- `updateOwnAABB` is modelled as a box that encloses every sphere (`SphereChain.BoundingBox`).

The neighbour query and the geometry distance routine are modelled as their
output. This is a sequence of `Neighbour` records, each with the agent's type
name, its exposed velocities and its proximity pairs.

The comment on the persistence time (`NucleusAgent.h:75-79`) calls it the
time in which the desired velocity is reached from rest. The code splits the
drive (phase one) from the friction (phase three), with an integration pass
between them. With `k = incrTime / persistence`, a round whose neighbours are
all guiding tracks (so only drive and friction act) maps a velocity `v` to
`(1 - k)(v + k * desired)`. Its fixed point is `(1 - k) * desired`, not the
desired velocity itself, and each round multiplies the gap to that fixed point
by `1 - k`. The gap shrinks only when `0 < k < 2`, and nothing in the model
bounds `k`.
`NucleusAgent.Round` keeps the code's order of phases. `FreeMotion.FreeRoundVelocity`
and `FreeMotion.FreeStepGap` state this map and its fixed point.
`FreeMotion.OnePassStep` is a one-pass variant that integrates drive and
friction in the same pass. Its fixed point is the desired velocity, which is
what that comment's reading asks for. The Findings section below records the
gap.

## Model

| member | source | states |
|---|---|---|
| SphereChain.BoundingBox | DrosoGen/src/Agents/NucleusAgent.h:45-47 | the cached box exists exactly when the chain has a sphere, and then it encloses every sphere of the chain |
| SphereChain.Inflate | DrosoGen/src/Agents/NucleusAgent.h:369-376 | the exposed chain keeps the sphere count and the centres, and every radius is the internal radius plus the width |
| SphereChain.InflateInverse | DrosoGen/src/Agents/NucleusAgent.h:369-373 | inflating by `width` and then by `-width` restores the chain, so publication loses nothing of the internal radii |
| Forces.NetForceConcat | DrosoGen/src/Agents/NucleusAgent.h:138 | a sphere's net force over two appended ledgers is the sum of the two net forces, so it does not depend on which generator emitted which entries |
| Forces.NetForceAbsent | DrosoGen/src/Agents/NucleusAgent.h:135-138 | a sphere that no entry names has zero net force |
| Forces.NetForceOnePerSphere | DrosoGen/src/Agents/NucleusAgent.h:138 | in a ledger whose k-th entry acts on sphere k, sphere i's net force is exactly the vector of entry i |
| Forces.Accumulate | DrosoGen/src/Agents/NucleusAgent.h:135-138 | the zero-then-add-at-hint loop yields, for every sphere, the sum of exactly the entries whose hint names that sphere |
| Forces.RepulsionScaleDecreasing | DrosoGen/src/Agents/NucleusAgent.h:271-272 | the repulsion magnitude `level * exp(-d / repScale)` is positive and strictly decreasing in the distance |
| Forces.BodyScaleShape | DrosoGen/src/Agents/NucleusAgent.h:290-295 | the body magnitude is never below the calm level, equals it up to the overlap depth, and never decreases with deeper penetration |
| Forces.BodyScaleLipschitz | DrosoGen/src/Agents/NucleusAgent.h:290-295 | the body magnitude grows by at most `overlapScale` per unit of extra penetration, across the calm-zone boundary too, so it is continuous there |
| Forces.HinterScaleBounds | DrosoGen/src/Agents/NucleusAgent.h:346 | the hinter magnitude lies in `[0, 2 * level]` and saturates at `2 * level` once `d^2 * hinterScale >= 1` |
| Forces.DefaultScaleExamples | DrosoGen/src/Agents/NucleusAgent.h:21-27 | with the file-scope strengths: penetration 1.0 gives body force 0.2, penetration 0.5 gives 0.1, and hinter distance 0.5 gives 0.0125 |
| Proximity.KindOf | DrosoGen/src/Agents/NucleusAgent.h:230-237 | a neighbour is a nucleus if and only if its type name starts with 'n', yolk if and only if it starts with 'y', and a track otherwise, including an empty name |
| Proximity.Filed | DrosoGen/src/Agents/NucleusAgent.h:230-237 | every pair the distance routine reports against a neighbour is kept, in order, and it carries the neighbour as its caller exactly when the neighbour is a nucleus |
| Proximity.Route | DrosoGen/src/Agents/NucleusAgent.h:225-239 | pairs in the nucleus list carry their caller; pairs in the yolk and track lists carry none |
| Proximity.RoutePartitions | DrosoGen/src/Agents/NucleusAgent.h:225-239 | the three proximity lists together hold exactly as many pairs as the distance routine reported |
| Proximity.RouteOfAbsentKind | DrosoGen/src/Agents/NucleusAgent.h:228-239 | with no neighbour of a kind, the list of that kind comes out empty |
| Proximity.RouteFits | DrosoGen/src/Agents/NucleusAgent.h:230-231 | when the distance routine reports in-range sphere indices, every nucleus pair names an existing local sphere and an existing sphere of a known opposing nucleus |
| NucleusAgent.New | DrosoGen/src/Agents/NucleusAgent.h:33-59 | a new nucleus has both geometries equal to the shape, unit weights, zero velocities, zero desired velocity, persistence time 2, cytoplasm width 2, ignore distance 10, the given clock and an empty ledger |
| NucleusAgent.GetVelocityOfSphere | DrosoGen/src/Agents/NucleusAgent.h:380-388 | a value comes back if and only if the index is below the sphere count, and it is that sphere's velocity |
| NucleusAgent.NeighbourOf | DrosoGen/src/Agents/NucleusAgent.h:231 | the neighbour record of an agent exposes exactly the velocities that agent's `getVelocityOfSphere` returns, index by index |
| NucleusAgent.FiledPairReadsCaller | DrosoGen/src/Agents/NucleusAgent.h:380-388 | for a pair filed against a nucleus neighbour (line 231), the opposing sphere index is in range, and the velocity the sliding rule reads from the caller (line 308) is the one that nucleus's `getVelocityOfSphere` returns |
| NucleusAgent.Integrate | DrosoGen/src/Agents/NucleusAgent.h:131-171 | afterwards the ledger is empty and count, radii, weights and published geometry are unchanged; per sphere, acceleration is net force over weight, `v' = v + dt a` and `c' = c + dt v'` |
| NucleusAgent.IntegrateUnforced | DrosoGen/src/Agents/NucleusAgent.h:153-164 | a sphere with zero net force keeps its velocity and moves by `dt v` |
| NucleusAgent.IntegrateUntouched | DrosoGen/src/Agents/NucleusAgent.h:135-164 | a sphere that no ledger entry names keeps its velocity and moves by `dt v` |
| NucleusAgent.DriveForces | DrosoGen/src/Agents/NucleusAgent.h:182-187 | one driving entry per sphere: entry i acts on sphere i, at its centre, with vector `(w_i / persistence) * desired` |
| NucleusAgent.FrictionForces | DrosoGen/src/Agents/NucleusAgent.h:207-212 | one friction entry per sphere: entry i acts on sphere i, at its centre, with vector `-(w_i / persistence) * v_i` |
| NucleusAgent.Advance | DrosoGen/src/Agents/NucleusAgent.h:174-195 | only the ledger and the clock change; the old ledger is kept as a prefix and one drive entry per sphere is appended; the clock advances by exactly `incrTime` |
| NucleusAgent.AdvanceDrivesEverySphere | DrosoGen/src/Agents/NucleusAgent.h:182-187 | phase one adds exactly `(w_i / persistence) * desired` to every sphere's net force |
| NucleusAgent.NucleusPairForces | DrosoGen/src/Agents/NucleusAgent.h:252-329 | a nucleus pair emits nothing at distance 3 or more, one repulsive entry in `(0, 3)`, and a body entry followed by a slide entry at distance 0 or less; every entry acts on the pair's local sphere at its centre |
| NucleusAgent.NucleiForces | DrosoGen/src/Agents/NucleusAgent.h:252-329 | all nucleus pairs together emit at most two entries per pair, each on an existing sphere |
| NucleusAgent.PairNetForce | DrosoGen/src/Agents/NucleusAgent.h:252-329 | one nucleus pair gives its local sphere everything it pushes with (the repulsion, or the body plus the sliding force) and every other sphere nothing |
| NucleusAgent.NucleiPull | DrosoGen/src/Agents/NucleusAgent.h:252-329 | the net force of the nucleus-pair loop on sphere `i` is the independent sum `NucleusPull` of the whole push of exactly the pairs whose local sphere is `i` |
| NucleusAgent.NucleiForcesLocal | DrosoGen/src/Agents/NucleusAgent.h:252-329 | a sphere that no nucleus pair names gets no force from the nucleus-pair loop |
| NucleusAgent.HinterPairForces | DrosoGen/src/Agents/NucleusAgent.h:333-351 | a yolk pair of the first sphere emits the same hinter vector once for every sphere, entry i on sphere i; a pair of any other sphere emits nothing |
| NucleusAgent.HinterForces | DrosoGen/src/Agents/NucleusAgent.h:333-351 | the yolk pairs emit only hinter entries, and each acts on an existing sphere |
| NucleusAgent.HinterRigid | DrosoGen/src/Agents/NucleusAgent.h:333-351 | every sphere receives the same net hinter force, the summed attraction of the first sphere's yolk pairs |
| NucleusAgent.CollectExtForces | DrosoGen/src/Agents/NucleusAgent.h:202-358 | the three proximity lists are replaced by the filed neighbours; the ledger gains friction, then the nucleus-pair forces, then the hinter forces, in that order; nothing else changes |
| NucleusAgent.ExtForcesPerSphere | DrosoGen/src/Agents/NucleusAgent.h:207-351 | per sphere, phase three adds friction, the whole push of every nucleus pair whose local sphere it is (`NucleusPull`), and the whole hinter pull to what the ledger held |
| NucleusAgent.TracksExertNoForce | DrosoGen/src/Agents/NucleusAgent.h:236-237 | an extra guiding-track neighbour only extends the track list; the ledger and the other two lists are unchanged |
| NucleusAgent.Publish | DrosoGen/src/Agents/NucleusAgent.h:365-377 | afterwards every exposed centre is the internal centre and every exposed radius is the internal radius plus the cytoplasm width; only the exposed geometry changes, and its box encloses the inflated spheres |
| NucleusAgent.PublishIdempotent | DrosoGen/src/Agents/NucleusAgent.h:369-376 | publishing twice is the same as publishing once |
| NucleusAgent.PublishedIsFixedPoint | DrosoGen/src/Agents/NucleusAgent.h:369-373 | a published agent's internal radii are its exposed radii minus the width, and publishing it again changes nothing |
| NucleusAgent.DrivePhase | DrosoGen/src/Agents/NucleusAgent.h:174-200 | drive then integrate: the ledger ends empty, the clock advances by one step, and count, radii, weights and motion parameters are kept |
| NucleusAgent.ContactPhase | DrosoGen/src/Agents/NucleusAgent.h:202-363 | collect external forces then integrate: the ledger ends empty, the clock, count, radii, weights and motion parameters are kept, and the proximity lists are those of the given neighbours |
| NucleusAgent.Round | DrosoGen/src/Agents/NucleusAgent.h:174-377 | after a round the agent is published, the ledger is empty, and the clock has advanced by one step; count, radii, weights and motion parameters are kept, and the proximity lists are those of the given neighbours |
| ContactLaw.RepulsionPointsAway | DrosoGen/src/Agents/NucleusAgent.h:261-273 | a repulsion has the repulsion magnitude as its length, lies on the line through the two surface points, and points from the other surface point towards the local one |
| ContactLaw.RepulsionWeakensWithDistance | DrosoGen/src/Agents/NucleusAgent.h:261-273 | the same pair moved farther apart, but still within the cutoff, is repelled strictly less |
| ContactLaw.BodyPushesApart | DrosoGen/src/Agents/NucleusAgent.h:283-299 | under contact the body force lies on the line through the two surface points; it has the body magnitude as its length and points from the local towards the other surface point, and coincident points give a zero force |
| ContactLaw.SlideIgnoresNormalMotion | DrosoGen/src/Agents/NucleusAgent.h:305-324 | the sliding rule does not resist separation or approach: raising the opposing sphere's velocity by any multiple of the vector from the local to the other surface point leaves the sliding force unchanged |
| ContactLaw.SlideIsTangential | DrosoGen/src/Agents/NucleusAgent.h:315-324 | the sliding force is orthogonal to the contact direction |
| ContactLaw.SlideVanishesAlongContact | DrosoGen/src/Agents/NucleusAgent.h:315-324 | when the opposing sphere moves relative to the local one by any multiple of the local-to-other direction, the sliding force is zero |
| ContactLaw.HinterClamped | DrosoGen/src/Agents/NucleusAgent.h:336-346 | the hinter attraction is never longer than twice the overlap level |
| ContactLaw.HinterTowardsShape | DrosoGen/src/Agents/NucleusAgent.h:336-346 | the hinter attraction lies on the line from the local surface point to the hinter point and never points away from the hinter point |
| Vectors.TangentialOrthogonal | DrosoGen/src/Agents/NucleusAgent.h:315-317 | subtracting the projection onto a unit-or-zero direction leaves a vector orthogonal to it |
| Vectors.TangentialOfLine | DrosoGen/src/Agents/NucleusAgent.h:315-317 | for the unit vector of `w`, or zero when `w` is zero, any multiple of `w` has no tangential part |
| Vectors.TangentialIgnoresLine | DrosoGen/src/Agents/NucleusAgent.h:315-317 | for the unit vector of `w`, or zero when `w` is zero, adding any multiple of `w` to `g` leaves the tangential part of `g` unchanged |
| FreeMotion.DriveOnly | DrosoGen/src/Agents/NucleusAgent.h:182-187 | on a clean ledger, after phase one, every sphere's net force is its driving force |
| FreeMotion.DrivenStep | DrosoGen/src/Agents/NucleusAgent.h:153-160 | phases one and two add `(incrTime / persistence) * desired` to every sphere's velocity, whatever its weight |
| FreeMotion.FrictionOnly | DrosoGen/src/Agents/NucleusAgent.h:207-237 | with only track neighbours, friction is the whole net force of phase three |
| FreeMotion.FrictionStep | DrosoGen/src/Agents/NucleusAgent.h:153-160 | with only track neighbours, phases three and four scale every velocity by `1 - incrTime / persistence`, whatever the weight |
| FreeMotion.FreeRoundVelocity | DrosoGen/src/Agents/NucleusAgent.h:174-212 | with only track neighbours, one round maps `v` to `(1 - k)(v + k * desired)`, with `k = incrTime / persistence` |
| FreeMotion.FreeStepGap | DrosoGen/src/Agents/NucleusAgent.h:185-210 | that map multiplies the gap to `(1 - k) * desired` by exactly `1 - k`, and `(1 - k) * desired` is its fixed point |
| FreeMotion.SplitSchemeMissesDesired | DrosoGen/src/Agents/NucleusAgent.h:182-212 | against the persistence-time comment at lines 75-79: for any nonzero `k` and nonzero desired velocity, that map moves a sphere already at the desired velocity off it by `k (k desired)` |
| FreeMotion.OnePassStep | DrosoGen/src/Agents/NucleusAgent.h:131-171 | the one-pass variant, integrating drive and friction in the same pass, keeps the agent valid, its sphere count, its motion parameters, and leaves an empty ledger |
| FreeMotion.OnePassVelocity | DrosoGen/src/Agents/NucleusAgent.h:153-160 | in one pass every sphere moves the fraction `k` of the way from its velocity to the desired one, whatever its weight |
| FreeMotion.OnePassSettles | DrosoGen/src/Agents/NucleusAgent.h:75-79 | the one-pass step multiplies the gap to the desired velocity itself by exactly `1 - k`, and a sphere already at the desired velocity keeps it |

## Left out

- Rendering (`drawMask`, `drawForDebug` and the voxel rasterisation) is display and image output, with no effect on the mechanics.
- The `#ifdef DEBUG` reporting, `forcesForDisplay` and `reportOverlap` are instrumentation with no physical effect.
- The debug-build bounds check of `getVelocityOfSphere` is modelled as `None`. A release build's out-of-range read is undefined behaviour and has no model.
- NucleusAgent.GetVelocityOfSphere: the index is a `nat`. The source takes a `long`, and its debug check (`NucleusAgent.h:383`) only rejects indices at or above the count, so a negative index passes it and reads out of bounds. That read is undefined behaviour and has no model.
- The scheduler's neighbour query (`getNearbyAgents`) and the distance routine (`getDistance`) are code that is not part of this model. Their output is an input sequence of neighbours. The routine's promise that sphere indices are in range is the predicate `NeighboursFit`.
- The behavioural hook `advanceAgent` is inherited, and its body is not part of this model. It runs before the drive loop (`NucleusAgent.h:177-187`) and could change the desired velocity; the model takes it as the identity. `futureGlobalTime` reaches only that hook and is not modelled.
- SphereChain.BoundingBox: `updateOwnAABB` is not part of this model. Its box is modelled as the hull of the per-sphere boxes, and only enclosure is stated.
- `Vector3d`'s default construction is not part of this model. Accelerations and velocities start at zero.
- Divisions need nonzero divisors over reals. Weights and the persistence time are kept positive by `Valid`, and `repScale` is required nonzero. With IEEE floats the source would produce infinities instead.
- IEEE single and double rounding, and the `float`/`FLOAT` casts of `incrTime`, are not modelled: all arithmetic is exact.
- `changeToUnitOrZero` and `std::exp` are parameters constrained only by the properties above. Their actual code and rounding are not part of this model.
- Memory layout (the shared `accels`/`velocities` buffer), the destructor and `forces.reserve` have no observable effect on the mechanics.
- The Java files of the SimViewer are display and console tools with no part in the mechanics.
- FreeMotion.FreeRoundVelocity covers only rounds whose neighbours are all guiding tracks. With nucleus or yolk neighbours the velocity also depends on the contact and hinter forces, which the ContactLaw lemmas describe one pair at a time.

## Findings

| source | as written | input that shows it | evidently intended | confidence | as-written member | corrected member |
|---|---|---|---|---|---|---|
| DrosoGen/src/Agents/NucleusAgent.h:182-212 | drive and friction are integrated in separate passes, so a round whose neighbours are all guiding tracks (so only drive and friction act) maps `v` to `(1 - k)(v + k d)`, with `k = incrTime / persistence`; its fixed point is `(1 - k) d` | `incrTime = 0.1`, persistence `2` (so `k = 0.05`), desired velocity and velocity both `(1, 0, 0)`: the next velocity is `(0.9975, 0, 0)` | the persistence time is, by its comment at lines 75-79, the time in which the desired velocity is reached, so the velocity should approach `d` itself: `v' = v + k (d - v)`, fixed point `d` | not executed; low, because the split of drive and friction may be a deliberate design of the simulation loop | FreeMotion.SplitSchemeMissesDesired | FreeMotion.OnePassSettles |

=== FILE: contact.dfy ===
/** Properties of the force rules for one proximity pair: the direction and
    size of the repulsion, body, sliding and hinter forces. They hold for
    every `exp` that is positive and increasing and every `unit` that keeps
    the contract of `changeToUnitOrZero`. */
module ContactLaw {
  import opened Options
  import opened Vectors
  import opened Forces
  import opened Proximity
  import opened NucleusAgent

  /** `unit` of any vector is a unit vector or zero. */
  lemma UnitOfAnyVector(unit: Vec3 -> Vec3, w: Vec3)
    requires UnitOrZeroMap(unit)
    ensures UnitOrZero(unit(w))
    ensures w == Zero ==> unit(w) == Zero
    ensures w != Zero ==> Dot(unit(w), unit(w)) == 1.0 && Dot(unit(w), w) > 0.0
  {
    assert UnitOrZeroAt(unit, w);
  }

  /** `unit` of any vector lies on the line of that vector. */
  lemma UnitOnLine(unit: Vec3 -> Vec3, w: Vec3)
    requires UnitOrZeroMap(unit)
    ensures Along(unit(w), w)
  {
    assert UnitOrZeroAt(unit, w);
  }

  /** A positive multiple `k` of `unit(w)`: on the line of `w`, zero when
      `w` is, and otherwise of length `k` and pointing the way `w` does. */
  lemma ScaledUnitFacts(unit: Vec3 -> Vec3, k: real, w: Vec3)
    requires UnitOrZeroMap(unit) && k > 0.0
    ensures var v := Scale(k, unit(w));
      && Along(v, w)
      && (w == Zero ==> v == Zero)
      && (w != Zero ==> Dot(v, v) == k * k && Dot(v, w) > 0.0)
  {
    UnitOfAnyVector(unit, w);
    ScaledUnitOnLine(unit, k, w);
    if w != Zero {
      DotScaleBoth(k, unit(w));
      DotScaleLeft(k, unit(w), w);
      PositiveProduct(k, Dot(unit(w), w));
    }
  }

  /** So does any multiple of it. */
  lemma ScaledUnitOnLine(unit: Vec3 -> Vec3, k: real, w: Vec3)
    requires UnitOrZeroMap(unit)
    ensures Along(Scale(k, unit(w)), w)
  {
    UnitOnLine(unit, w);
    AlongScale(k, unit(w), w);
  }

  /** `unit` of any vector does not point away from it. */
  lemma UnitFacing(unit: Vec3 -> Vec3, w: Vec3)
    requires UnitOrZeroMap(unit)
    ensures Dot(unit(w), w) >= 0.0
  {
    UnitOfAnyVector(unit, w);
  }

  /** Between non-touching nuclei closer than the cutoff, the repulsion has
      the repulsion magnitude, lies on the line through the two surface
      points, and pushes the local surface away from the other one. */
  lemma RepulsionPointsAway(a: Agent, s: Strengths, exp: real -> real, unit: Vec3 -> Vec3, pp: ProximityPair)
    requires a.Valid() && NucleusPairFits(pp, a.Count())
    requires ExpLike(exp) && UnitOrZeroMap(unit)
    requires s.overlapLevel > 0.0 && s.repScale > 0.0
    requires 0.0 < pp.distance < RepulsionCutoff && pp.localPos != pp.otherPos
    ensures var v := NucleusPairForces(a, s, exp, unit, pp)[0].vec;
      && Dot(v, v) == RepulsionScale(s, exp, pp.distance) * RepulsionScale(s, exp, pp.distance)
      && Dot(v, Sub(pp.localPos, pp.otherPos)) > 0.0
      && Along(v, Sub(pp.localPos, pp.otherPos))
  {
    var w := Sub(pp.localPos, pp.otherPos);
    var k := RepulsionScale(s, exp, pp.distance);
    RepulsionShape(a, s, exp, unit, pp);
    RepulsionScaleDecreasing(s, exp, pp.distance, pp.distance);
    ScaledUnitFacts(unit, k, w);
    SubZero(pp.localPos, pp.otherPos);
  }

  /** Unfolds the repulsion of a pair short of the cutoff. */
  lemma RepulsionShape(a: Agent, s: Strengths, exp: real -> real, unit: Vec3 -> Vec3, pp: ProximityPair)
    requires a.Valid() && s.repScale != 0.0 && NucleusPairFits(pp, a.Count())
    requires 0.0 < pp.distance < RepulsionCutoff
    ensures NucleusPairForces(a, s, exp, unit, pp)[0].vec
      == Scale(RepulsionScale(s, exp, pp.distance), unit(Sub(pp.localPos, pp.otherPos)))
  {
  }

  /** The same pair moved farther apart, still short of the cutoff, is
      repelled strictly less. */
  lemma RepulsionWeakensWithDistance(a: Agent, s: Strengths, exp: real -> real, unit: Vec3 -> Vec3,
                                     pp: ProximityPair, farther: real)
    requires a.Valid() && NucleusPairFits(pp, a.Count())
    requires ExpLike(exp) && UnitOrZeroMap(unit)
    requires s.overlapLevel > 0.0 && s.repScale > 0.0
    requires 0.0 < pp.distance < farther < RepulsionCutoff && pp.localPos != pp.otherPos
    ensures var near := NucleusPairForces(a, s, exp, unit, pp)[0].vec;
      var far := NucleusPairForces(a, s, exp, unit, pp.(distance := farther))[0].vec;
      Dot(far, far) < Dot(near, near)
  {
    var k1 := RepulsionScale(s, exp, pp.distance);
    var k2 := RepulsionScale(s, exp, farther);
    RepulsionScaleDecreasing(s, exp, pp.distance, farther);
    RepulsionScaleDecreasing(s, exp, farther, farther);
    RepulsionPointsAway(a, s, exp, unit, pp);
    RepulsionPointsAway(a, s, exp, unit, pp.(distance := farther));
    SquareMonotone(k2, k1);
  }

  lemma SquareMonotone(x: real, y: real)
    requires 0.0 <= x < y
    ensures x * x < y * y
  {
    var d := y - x;
    var e := y + x;
    PositiveProduct(d, e);
    assert y * y - x * x == d * e;
  }

  /** Under contact the body force has the body magnitude, lies on the line
      through the two surface points, and points from the local one to the
      other one, which, with the surfaces crossed, drives the nuclei apart.
      Coincident points give no body force at all, never a not-a-number. */
  lemma BodyPushesApart(a: Agent, s: Strengths, exp: real -> real, unit: Vec3 -> Vec3, pp: ProximityPair)
    requires a.Valid() && s.repScale != 0.0 && NucleusPairFits(pp, a.Count())
    requires UnitOrZeroMap(unit)
    requires s.overlapLevel > 0.0 && s.overlapScale >= 0.0
    requires pp.distance <= 0.0
    ensures Along(NucleusPairForces(a, s, exp, unit, pp)[0].vec, Sub(pp.otherPos, pp.localPos))
    ensures pp.localPos == pp.otherPos ==> NucleusPairForces(a, s, exp, unit, pp)[0].vec == Zero
    ensures pp.localPos != pp.otherPos ==>
      var v := NucleusPairForces(a, s, exp, unit, pp)[0].vec;
      && Dot(v, v) == BodyScale(s, -pp.distance) * BodyScale(s, -pp.distance)
      && Dot(v, Sub(pp.otherPos, pp.localPos)) > 0.0
  {
    var w := Sub(pp.otherPos, pp.localPos);
    var k := BodyScale(s, -pp.distance);
    BodyShape(a, s, exp, unit, pp);
    BodyScaleShape(s, -pp.distance, -pp.distance);
    ScaledUnitFacts(unit, k, w);
    SubZero(pp.otherPos, pp.localPos);
  }

  /** Unfolds the body force of a contact pair. */
  lemma BodyShape(a: Agent, s: Strengths, exp: real -> real, unit: Vec3 -> Vec3, pp: ProximityPair)
    requires a.Valid() && s.repScale != 0.0 && NucleusPairFits(pp, a.Count())
    requires pp.distance <= 0.0
    ensures NucleusPairForces(a, s, exp, unit, pp)[0].vec
      == Scale(BodyScale(s, -pp.distance), unit(Sub(pp.otherPos, pp.localPos)))
  {
  }

  /** The second entry of a contact pair is its sliding force. */
  lemma SlideShape(a: Agent, s: Strengths, exp: real -> real, unit: Vec3 -> Vec3, pp: ProximityPair)
    requires a.Valid() && s.repScale != 0.0 && NucleusPairFits(pp, a.Count())
    requires pp.distance <= 0.0
    ensures NucleusPairForces(a, s, exp, unit, pp)[1].vec == SlideForce(a, s, unit, pp)
  {
  }

  /** The pair with the opposing sphere's velocity raised by `k` times the
      vector from the local to the other surface point. */
  function Nudged(pp: ProximityPair, k: real): (q: ProximityPair)
    requires pp.caller.Some? && 0 <= pp.otherHint < |pp.caller.value|
    ensures q.caller.Some? && |q.caller.value| == |pp.caller.value|
    ensures q.localHint == pp.localHint && q.otherHint == pp.otherHint && q.distance == pp.distance
    ensures q.localPos == pp.localPos && q.otherPos == pp.otherPos
    ensures q.caller.value[q.otherHint] == Add(pp.caller.value[pp.otherHint], Scale(k, Sub(pp.otherPos, pp.localPos)))
  {
    var cv := pp.caller.value;
    pp.(caller := Some(cv[pp.otherHint := Add(cv[pp.otherHint], Scale(k, Sub(pp.otherPos, pp.localPos)))]))
  }

  /** The sliding rule does not resist separation or approach: giving the
      opposing sphere any extra velocity along the line from the local to
      the other surface point leaves the sliding force as it was. */
  lemma SlideIgnoresNormalMotion(a: Agent, s: Strengths, exp: real -> real, unit: Vec3 -> Vec3,
                                 pp: ProximityPair, k: real)
    requires a.Valid() && s.repScale != 0.0 && NucleusPairFits(pp, a.Count())
    requires UnitOrZeroMap(unit)
    requires pp.distance <= 0.0
    ensures NucleusPairFits(Nudged(pp, k), a.Count())
    ensures NucleusPairForces(a, s, exp, unit, Nudged(pp, k))[1].vec == NucleusPairForces(a, s, exp, unit, pp)[1].vec
  {
    SlideShape(a, s, exp, unit, pp);
    SlideShape(a, s, exp, unit, Nudged(pp, k));
    SlideForceIgnoresLine(a, s, unit, pp, k);
  }

  lemma SlideForceIgnoresLine(a: Agent, s: Strengths, unit: Vec3 -> Vec3, pp: ProximityPair, k: real)
    requires a.Valid() && NucleusPairFits(pp, a.Count()) && UnitOrZeroMap(unit)
    ensures NucleusPairFits(Nudged(pp, k), a.Count())
    ensures SlideForce(a, s, unit, Nudged(pp, k)) == SlideForce(a, s, unit, pp)
  {
    var q := Nudged(pp, k);
    var w := Sub(pp.otherPos, pp.localPos);
    var o := pp.caller.value[pp.otherHint];
    var own := a.velocities[pp.localHint];
    SubShift(o, own, Scale(k, w));
    UnitIgnoresLine(unit, w, Sub(o, own), k);
    assert Sub(q.caller.value[q.otherHint], own) == Add(Sub(o, own), Scale(k, w));
  }

  /** Motion along `w` leaves the part of `g` tangential to `unit(w)`. */
  lemma UnitIgnoresLine(unit: Vec3 -> Vec3, w: Vec3, g: Vec3, k: real)
    requires UnitOrZeroMap(unit)
    ensures Tangential(unit(w), Add(g, Scale(k, w))) == Tangential(unit(w), g)
  {
    UnitOfAnyVector(unit, w);
    UnitOnLine(unit, w);
    TangentialIgnoresLine(unit(w), w, g, k);
  }

  /** The sliding force is orthogonal to the contact direction, so it
      neither resists nor helps separation. */
  lemma SlideIsTangential(a: Agent, s: Strengths, exp: real -> real, unit: Vec3 -> Vec3, pp: ProximityPair)
    requires a.Valid() && s.repScale != 0.0 && NucleusPairFits(pp, a.Count())
    requires UnitOrZeroMap(unit)
    requires pp.distance <= 0.0
    ensures Dot(NucleusPairForces(a, s, exp, unit, pp)[1].vec, unit(Sub(pp.otherPos, pp.localPos))) == 0.0
  {
    var w := Sub(pp.otherPos, pp.localPos);
    var g := Sub(pp.caller.value[pp.otherHint], a.velocities[pp.localHint]);
    SlideShape(a, s, exp, unit, pp);
    UnitSlideOrthogonal(unit, w, g, SlideFactor(a, s, pp.localHint));
  }

  /** A multiple of the part of `g` tangential to `unit(w)` is orthogonal
      to `unit(w)`. */
  lemma UnitSlideOrthogonal(unit: Vec3 -> Vec3, w: Vec3, g: Vec3, c: real)
    requires UnitOrZeroMap(unit)
    ensures Dot(Scale(c, Tangential(unit(w), g)), unit(w)) == 0.0
  {
    var f := unit(w);
    UnitOfAnyVector(unit, w);
    TangentialOrthogonal(f, g);
    DotScaleLeft(c, Tangential(f, g), f);
    DotComm(Tangential(f, g), f);
  }

  /** When the two spheres move relative to each other only along the line
      through the two surface points, there is no sliding force. */
  lemma SlideVanishesAlongContact(a: Agent, s: Strengths, exp: real -> real, unit: Vec3 -> Vec3,
                                  pp: ProximityPair, k: real)
    requires a.Valid() && s.repScale != 0.0 && NucleusPairFits(pp, a.Count())
    requires UnitOrZeroMap(unit)
    requires pp.distance <= 0.0
    requires pp.caller.value[pp.otherHint]
      == Add(a.velocities[pp.localHint], Scale(k, Sub(pp.otherPos, pp.localPos)))
    ensures NucleusPairForces(a, s, exp, unit, pp)[1].vec == Zero
  {
    var w := Sub(pp.otherPos, pp.localPos);
    SlideShape(a, s, exp, unit, pp);
    SubAdd(a.velocities[pp.localHint], Scale(k, w));
    UnitVanishesOnLine(unit, w, k);
    ScaleZero(SlideFactor(a, s, pp.localHint));
  }

  /** Any multiple of `w` has no part tangential to `unit(w)`. */
  lemma UnitVanishesOnLine(unit: Vec3 -> Vec3, w: Vec3, k: real)
    requires UnitOrZeroMap(unit)
    ensures Tangential(unit(w), Scale(k, w)) == Zero
  {
    UnitOfAnyVector(unit, w);
    UnitOnLine(unit, w);
    TangentialOfLine(unit(w), w, k);
  }

  /** A multiple `h` of a unit-or-zero vector, with `0 <= h <= top`, is no
      longer than `top`. */
  lemma ScaledUnitBound(h: real, u: Vec3, top: real)
    requires UnitOrZero(u) && 0.0 <= h <= top
    ensures Dot(Scale(h, u), Scale(h, u)) <= top * top
  {
    DotScaleBoth(h, u);
    if u == Zero {
      assert Scale(h, u) == Zero;
    } else {
      assert h * h * Dot(u, u) == h * h;
      if h < top {
        SquareMonotone(h, top);
      }
    }
  }

  /** The hinter attraction is clamped: its length never exceeds twice the
      overlap level. */
  lemma HinterClamped(s: Strengths, unit: Vec3 -> Vec3, pp: ProximityPair)
    requires UnitOrZeroMap(unit)
    requires s.overlapLevel >= 0.0 && s.hinterScale >= 0.0
    ensures Dot(HinterVector(s, unit, pp), HinterVector(s, unit, pp))
      <= (2.0 * s.overlapLevel) * (2.0 * s.overlapLevel)
  {
    var w := Sub(pp.otherPos, pp.localPos);
    var h := HinterScale(s, pp.distance);
    assert HinterVector(s, unit, pp) == Scale(h, unit(w));
    HinterScaleBounds(s, pp.distance);
    UnitOfAnyVector(unit, w);
    ScaledUnitBound(h, unit(w), 2.0 * s.overlapLevel);
  }

  /** The hinter attraction lies on the line from the local point to the
      hinter point and never points away from the hinter. */
  lemma HinterTowardsShape(s: Strengths, unit: Vec3 -> Vec3, pp: ProximityPair)
    requires UnitOrZeroMap(unit)
    requires s.overlapLevel >= 0.0 && s.hinterScale >= 0.0
    ensures Along(HinterVector(s, unit, pp), Sub(pp.otherPos, pp.localPos))
    ensures Dot(HinterVector(s, unit, pp), Sub(pp.otherPos, pp.localPos)) >= 0.0
  {
    var w := Sub(pp.otherPos, pp.localPos);
    HinterScaleBounds(s, pp.distance);
    UnitOnLine(unit, w);
    AlongScale(HinterScale(s, pp.distance), unit(w), w);
    UnitFacing(unit, w);
    NonNegativeAlong(HinterVector(s, unit, pp), HinterScale(s, pp.distance), unit(w), w);
  }

  /** A non-negative multiple of a vector that does not point away from
      `w` does not point away from `w` either. */
  lemma NonNegativeAlong(v: Vec3, h: real, u: Vec3, w: Vec3)
    requires v == Scale(h, u) && h >= 0.0 && Dot(u, w) >= 0.0
    ensures Dot(v, w) >= 0.0
  {
    DotScaleLeft(h, u, w);
    NonNegativeProduct(h, Dot(u, w));
  }

  lemma NonNegativeProduct(d: real, e: real)
    requires d >= 0.0 && e >= 0.0
    ensures d * e >= 0.0
  {
  }
}

=== FILE: forces.dfy ===
/** The force ledger of a nucleus and the scalar parts of its force law.
    A ledger entry is a force vector, the point it acts at, the index of the
    sphere it acts on (`hint`) and a type tag. Within one simulation round the
    ledger is filled by the force generators and consumed, entry by entry, by
    the integrator, which sums the entries of each sphere into one net force. */
module Forces {
  import opened Vectors

  /** The type tags of `NucleusAgent.h`. `SphereSphere` is declared there for
      internal forces but no rule of the nucleus emits it. */
  datatype ForceType = SphereSphere | Drive | Friction | Repulsive | Body | Slide | Hinter

  datatype ForceVector = ForceVector(vec: Vec3, base: Vec3, hint: int, ftype: ForceType)

  type Ledger = seq<ForceVector>

  /** Every entry names one of the `n` spheres. */
  predicate HintsBelow(ledger: Ledger, n: nat) {
    forall k :: 0 <= k < |ledger| ==> 0 <= ledger[k].hint < n
  }

  /** The sum of a sequence of vectors, added left to right. */
  function Total(vs: seq<Vec3>): Vec3
    decreases |vs|
  {
    if |vs| == 0 then Zero else Add(Total(vs[..|vs| - 1]), vs[|vs| - 1])
  }

  /** The force vectors of the entries acting on sphere `i`, in ledger order. */
  function OnSphere(ledger: Ledger, i: int): seq<Vec3>
    decreases |ledger|
  {
    if |ledger| == 0 then []
    else
      var e := ledger[|ledger| - 1];
      OnSphere(ledger[..|ledger| - 1], i) + (if e.hint == i then [e.vec] else [])
  }

  /** The net force on sphere `i`: the sum of exactly the entries whose hint
      is `i`. This is the reference the integrator is proved against. */
  function NetForce(ledger: Ledger, i: int): Vec3 {
    Total(OnSphere(ledger, i))
  }

  /** The contribution of one entry to sphere `i`. */
  function Share(e: ForceVector, i: int): Vec3 {
    if e.hint == i then e.vec else Zero
  }

  lemma AddAssoc(a: Vec3, b: Vec3, c: Vec3)
    ensures Add(Add(a, b), c) == Add(a, Add(b, c))
  {
  }

  lemma NetForceSnoc(ledger: Ledger, e: ForceVector, i: int)
    ensures NetForce(ledger + [e], i) == Add(NetForce(ledger, i), Share(e, i))
  {
    var l := ledger + [e];
    assert l[..|l| - 1] == ledger;
    if e.hint != i {
      assert OnSphere(l, i) == OnSphere(ledger, i);
    } else {
      var vs := OnSphere(l, i);
      assert vs == OnSphere(ledger, i) + [e.vec];
      assert vs[..|vs| - 1] == OnSphere(ledger, i);
    }
  }

  /** The net force of two ledgers appended is the sum of their net forces:
      a sphere's net force does not depend on how the ledger was split
      between the force generators. */
  lemma {:induction false} NetForceConcat(l1: Ledger, l2: Ledger, i: int)
    ensures NetForce(l1 + l2, i) == Add(NetForce(l1, i), NetForce(l2, i))
    decreases |l2|
  {
    if |l2| == 0 {
      assert l1 + l2 == l1;
      assert NetForce(l2, i) == Zero;
    } else {
      var init := l2[..|l2| - 1];
      var e := l2[|l2| - 1];
      assert l2 == init + [e];
      assert l1 + l2 == (l1 + init) + [e];
      NetForceConcat(l1, init, i);
      NetForceSnoc(l1 + init, e, i);
      NetForceSnoc(init, e, i);
      AddAssoc(NetForce(l1, i), NetForce(init, i), Share(e, i));
    }
  }

  /** A sphere no entry names feels no force. */
  lemma {:induction false} NetForceAbsent(ledger: Ledger, i: int)
    requires forall k :: 0 <= k < |ledger| ==> ledger[k].hint != i
    ensures NetForce(ledger, i) == Zero
    decreases |ledger|
  {
    if |ledger| > 0 {
      var init := ledger[..|ledger| - 1];
      assert ledger == init + [ledger[|ledger| - 1]];
      NetForceAbsent(init, i);
      NetForceSnoc(init, ledger[|ledger| - 1], i);
    }
  }

  /** One entry per sphere, the k-th entry acting on sphere k. */
  predicate OnePerSphere(ledger: Ledger) {
    forall k :: 0 <= k < |ledger| ==> ledger[k].hint == k
  }

  /** Appending an entry for a sphere other than `i` leaves `i`'s net force. */
  lemma NetForceSnocOther(ledger: Ledger, e: ForceVector, i: int)
    requires e.hint != i
    ensures NetForce(ledger + [e], i) == NetForce(ledger, i)
  {
    NetForceSnoc(ledger, e, i);
  }

  /** Appending the first entry for sphere `i` makes it `i`'s net force. */
  lemma NetForceSnocFirst(ledger: Ledger, e: ForceVector, i: int)
    requires e.hint == i
    requires forall k :: 0 <= k < |ledger| ==> ledger[k].hint != i
    ensures NetForce(ledger + [e], i) == e.vec
  {
    NetForceSnoc(ledger, e, i);
    NetForceAbsent(ledger, i);
  }

  /** A ledger holding one entry per sphere gives sphere `i` exactly the
      vector of its own entry. */
  lemma {:induction false} NetForceOnePerSphere(ledger: Ledger, i: int)
    requires OnePerSphere(ledger)
    requires 0 <= i < |ledger|
    ensures NetForce(ledger, i) == ledger[i].vec
    decreases |ledger|
  {
    var init := ledger[..|ledger| - 1];
    var e := ledger[|ledger| - 1];
    assert ledger == init + [e];
    if i < |init| {
      assert OnePerSphere(init);
      NetForceOnePerSphere(init, i);
      NetForceSnocOther(init, e, i);
      assert init[i] == ledger[i];
    } else {
      assert forall k :: 0 <= k < |init| ==> init[k].hint != i;
      NetForceSnocFirst(init, e, i);
    }
  }

  function Zeros(n: nat): (r: seq<Vec3>)
    ensures |r| == n && forall i :: 0 <= i < n ==> r[i] == Zero
  {
    seq(n, _ => Zero)
  }

  /** The accumulation loop of the integrator: start from `n` zero vectors
      and add every entry, in ledger order, to the slot its hint names. */
  function Accumulate(ledger: Ledger, n: nat): (acc: seq<Vec3>)
    requires HintsBelow(ledger, n)
    ensures |acc| == n
    ensures forall i :: 0 <= i < n ==> acc[i] == NetForce(ledger, i)
    decreases |ledger|
  {
    if |ledger| == 0 then Zeros(n)
    else
      var init := ledger[..|ledger| - 1];
      var e := ledger[|ledger| - 1];
      var prev := Accumulate(init, n);
      assert ledger == init + [e];
      assert forall i :: 0 <= i < n ==> NetForce(ledger, i) == Add(prev[i], Share(e, i)) by {
        forall i | 0 <= i < n {
          NetForceSnoc(init, e, i);
        }
      }
      prev[e.hint := Add(prev[e.hint], e.vec)]
  }

  /** The tunable strengths of the force law, file-scope constants in the
      source. `bodyScale` is declared there but used by no rule. */
  datatype Strengths = Strengths(
    bodyScale: real,
    overlapScale: real,
    overlapLevel: real,
    overlapDepth: real,
    repScale: real,
    slideScale: real,
    hinterScale: real)

  const Defaults: Strengths := Strengths(0.4, 0.2, 0.1, 0.5, 0.6, 1.0, 0.25)

  /** Neighbouring nuclei farther apart than this exert no repulsion. */
  const RepulsionCutoff: real := 3.0

  /** Magnitude of the repulsion between non-touching nuclei at distance `d`. */
  function RepulsionScale(s: Strengths, exp: real -> real, d: real): real
    requires s.repScale != 0.0
  {
    s.overlapLevel * exp(-d / s.repScale)
  }

  /** Magnitude of the body force at penetration depth `p`: a calm level up
      to `overlapDepth`, growing linearly beyond it. */
  function BodyScale(s: Strengths, p: real): real {
    if p > s.overlapDepth then s.overlapLevel + s.overlapScale * (p - s.overlapDepth)
    else s.overlapLevel
  }

  /** Magnitude of the attraction towards the shape hinter at distance `d`. */
  function HinterScale(s: Strengths, d: real): real {
    2.0 * s.overlapLevel * Min(d * d * s.hinterScale, 1.0)
  }

  /** Repulsion is positive and strictly decreasing in the distance. */
  lemma RepulsionScaleDecreasing(s: Strengths, exp: real -> real, d1: real, d2: real)
    requires ExpLike(exp) && s.overlapLevel > 0.0 && s.repScale > 0.0
    ensures RepulsionScale(s, exp, d1) > 0.0
    ensures d1 < d2 ==> RepulsionScale(s, exp, d1) > RepulsionScale(s, exp, d2)
  {
    assert exp(-d1 / s.repScale) > 0.0;
    if d1 < d2 {
      assert -d1 / s.repScale > -d2 / s.repScale by {
        assert d1 / s.repScale < d2 / s.repScale by {
          assert (d2 - d1) / s.repScale > 0.0;
        }
      }
      assert exp(-d1 / s.repScale) > exp(-d2 / s.repScale);
    }
  }

  /** The body force never drops below the calm level, is exactly the calm
      level up to `overlapDepth` (so it is continuous there), and never
      decreases with deeper penetration. */
  lemma BodyScaleShape(s: Strengths, p: real, q: real)
    requires s.overlapScale >= 0.0
    ensures BodyScale(s, p) >= s.overlapLevel
    ensures p <= s.overlapDepth ==> BodyScale(s, p) == s.overlapLevel
    ensures p <= q ==> BodyScale(s, p) <= BodyScale(s, q)
  {
  }

  /** Continuity, quantitatively: the body force changes by at most
      `overlapScale` per unit of penetration, across the calm-zone boundary
      included. */
  lemma BodyScaleLipschitz(s: Strengths, p: real, q: real)
    requires s.overlapScale >= 0.0 && p <= q
    ensures BodyScale(s, q) - BodyScale(s, p) <= s.overlapScale * (q - p)
  {
    var c := s.overlapScale;
    var d := s.overlapDepth;
    if q <= d {
      assert BodyScale(s, q) - BodyScale(s, p) == 0.0;
      ScaleMonotone(c, 0.0, q - p);
    } else if p <= d {
      assert BodyScale(s, q) - BodyScale(s, p) == c * (q - d);
      ScaleMonotone(c, q - d, q - p);
    } else {
      assert BodyScale(s, q) - BodyScale(s, p) == c * (q - d) - c * (p - d);
      assert c * (q - d) - c * (p - d) == c * (q - p);
    }
  }

  lemma ScaleMonotone(c: real, x: real, y: real)
    requires c >= 0.0 && x <= y
    ensures c * x <= c * y
  {
    assert c * y - c * x == c * (y - x);
  }

  /** The hinter attraction is clamped between zero and twice the level. */
  lemma HinterScaleBounds(s: Strengths, d: real)
    requires s.overlapLevel >= 0.0 && s.hinterScale >= 0.0
    ensures 0.0 <= HinterScale(s, d) <= 2.0 * s.overlapLevel
    ensures d * d * s.hinterScale >= 1.0 ==> HinterScale(s, d) == 2.0 * s.overlapLevel
  {
    assert d * d >= 0.0;
    assert d * d * s.hinterScale >= 0.0;
  }

  /** The worked values of the default strengths: penetration 1.0 gives body
      force 0.2, penetration 0.5 (the calm-zone boundary) gives 0.1, and a
      hinter distance of 0.5 gives 0.0125. */
  lemma DefaultScaleExamples()
    ensures BodyScale(Defaults, 1.0) == 0.2
    ensures BodyScale(Defaults, 0.5) == 0.1
    ensures HinterScale(Defaults, 0.5) == 0.0125
  {
  }
}

=== FILE: motion.dfy ===
/** How a nucleus moves when its neighbours are all guiding tracks, so
    only drive and friction act. Phase one and two together
    add `incrTime / persistence` times the desired velocity to every sphere,
    whatever its weight; phase three and four then remove the same fraction
    of the new velocity by friction. The fixed point of this split scheme
    is `(1 - incrTime / persistence)` times the desired velocity, and each
    round multiplies the gap to it by `1 - incrTime / persistence`; the
    gap shrinks when that step fraction lies strictly between 0 and 2,
    which nothing in the agent bounds. */
module FreeMotion {
  import opened Vectors
  import opened Forces
  import opened Proximity
  import opened NucleusAgent

  /** The driving force over the weight, integrated for one step, with `n`
      the force component. */
  lemma DriveComponent(dt: real, w: real, tau: real, x: real, n: real)
    requires w > 0.0 && tau > 0.0 && n == (w / tau) * x
    ensures dt * (n / w) == (dt / tau) * x
  {
    assert n == w * (x / tau);
    assert n / w == x / tau;
  }

  lemma DriveVector(dt: real, w: real, tau: real, v: Vec3, d: Vec3)
    requires w > 0.0 && tau > 0.0
    ensures Add(v, Scale(dt, Div(Scale(w / tau, d), w))) == Add(v, Scale(dt / tau, d))
  {
    var n := Scale(w / tau, d);
    DriveComponent(dt, w, tau, d.x, n.x);
    DriveComponent(dt, w, tau, d.y, n.y);
    DriveComponent(dt, w, tau, d.z, n.z);
    assert Div(n, w) == Vec3(n.x / w, n.y / w, n.z / w);
  }

  /** The friction force over the weight, integrated for one step, with `n`
      the force component. */
  lemma FrictionComponent(dt: real, w: real, tau: real, y: real, n: real)
    requires w > 0.0 && tau > 0.0 && n == (-w / tau) * y
    ensures y + dt * (n / w) == (1.0 - dt / tau) * y
  {
    assert n == w * (-y / tau);
    assert n / w == -y / tau;
    assert dt * (-y / tau) == -(dt / tau) * y;
  }

  lemma FrictionVector(dt: real, w: real, tau: real, v: Vec3)
    requires w > 0.0 && tau > 0.0
    ensures Add(v, Scale(dt, Div(Scale(-w / tau, v), w))) == Scale(1.0 - dt / tau, v)
  {
    var n := Scale(-w / tau, v);
    FrictionComponent(dt, w, tau, v.x, n.x);
    FrictionComponent(dt, w, tau, v.y, n.y);
    FrictionComponent(dt, w, tau, v.z, n.z);
    assert Div(n, w) == Vec3(n.x / w, n.y / w, n.z / w);
  }

  /** Phase one on a clean ledger: the driving force is the only force on
      every sphere. */
  lemma DriveOnly(a: Agent, futureGlobalTime: real, i: int)
    requires a.Valid() && a.forces == [] && 0 <= i < a.Count()
    ensures NetForce(Advance(a, futureGlobalTime).forces, i) == Scale(a.weights[i] / a.persistence, a.desired)
  {
    AdvanceDrivesEverySphere(a, futureGlobalTime, i);
    var held := NetForce(a.forces, i);
    assert held == Zero;
    ZeroSum(held, Scale(a.weights[i] / a.persistence, a.desired), Zero, Zero);
  }

  /** The same step in the agent's own terms: the weight cancels out. */
  lemma DriveFactor(a: Agent, i: int)
    requires a.Valid() && 0 <= i < a.Count()
    ensures Add(a.velocities[i], Scale(a.incrTime, Div(Scale(a.weights[i] / a.persistence, a.desired), a.weights[i])))
      == Add(a.velocities[i], Scale(a.incrTime / a.persistence, a.desired))
  {
    DriveVector(a.incrTime, a.weights[i], a.persistence, a.velocities[i], a.desired);
  }

  /** Phases one and two on a clean ledger: every sphere gains
      `incrTime / persistence` times the desired velocity; the weight
      cancels out. */
  lemma DrivenStep(a: Agent, futureGlobalTime: real, i: int)
    requires a.Valid() && a.forces == [] && 0 <= i < a.Count()
    ensures Integrate(Advance(a, futureGlobalTime)).velocities[i]
      == Add(a.velocities[i], Scale(a.incrTime / a.persistence, a.desired))
  {
    DriveOnly(a, futureGlobalTime, i);
    IntegrateVelocity(Advance(a, futureGlobalTime), i, Scale(a.weights[i] / a.persistence, a.desired));
    DriveFactor(a, i);
  }

  /** Phase three on a clean ledger with no neighbours but guiding tracks:
      friction is the only force left on every sphere. */
  lemma FrictionOnly(b: Agent, ns: seq<Neighbour>, s: Strengths,
                     exp: real -> real, unit: Vec3 -> Vec3, i: int)
    requires b.Valid() && b.forces == [] && s.repScale != 0.0 && 0 <= i < b.Count()
    requires forall k :: 0 <= k < |ns| ==> KindOf(ns[k].agentType) == Track
    ensures NeighboursFit(ns, b.Count())
    ensures NetForce(CollectExtForces(b, ns, s, exp, unit).forces, i)
      == Scale(-b.weights[i] / b.persistence, b.velocities[i])
  {
    assert NeighboursFit(ns, b.Count());
    RouteOfAbsentKind(ns, Nucleus);
    RouteOfAbsentKind(ns, Yolk);
    ExtForcesPerSphere(b, ns, s, exp, unit, i);
    var held := NetForce(b.forces, i);
    var nuclei := NucleusPull(b, s, exp, unit, [], i);
    var pull := HinterPull(s, unit, []);
    assert held == Zero && nuclei == Zero && pull == Zero;
    ZeroSum(held, Scale(-b.weights[i] / b.persistence, b.velocities[i]), nuclei, pull);
  }

  lemma ZeroSum(p: Vec3, f: Vec3, q: Vec3, r: Vec3)
    requires p == Zero && q == Zero && r == Zero
    ensures Add(Add(Add(p, f), q), r) == f
  {
  }

  /** Phase four after friction alone: the net force over the weight,
      integrated for one step. */
  lemma FrictionIntegrated(b: Agent, ns: seq<Neighbour>, s: Strengths,
                           exp: real -> real, unit: Vec3 -> Vec3, i: int)
    requires b.Valid() && b.forces == [] && s.repScale != 0.0 && 0 <= i < b.Count()
    requires forall k :: 0 <= k < |ns| ==> KindOf(ns[k].agentType) == Track
    ensures NeighboursFit(ns, b.Count())
    ensures Integrate(CollectExtForces(b, ns, s, exp, unit)).velocities[i]
      == Add(b.velocities[i], Scale(b.incrTime, Div(Scale(-b.weights[i] / b.persistence, b.velocities[i]), b.weights[i])))
  {
    FrictionOnly(b, ns, s, exp, unit, i);
    var c := CollectExtForces(b, ns, s, exp, unit);
    IntegrateVelocity(c, i, Scale(-b.weights[i] / b.persistence, b.velocities[i]));
  }

  /** The same step in the agent's own terms: the weight cancels out. */
  lemma FrictionFactor(b: Agent, i: int, a: Agent)
    requires b.Valid() && 0 <= i < b.Count() && a.incrTime == b.incrTime && a.persistence == b.persistence
    ensures Add(b.velocities[i], Scale(b.incrTime, Div(Scale(-b.weights[i] / b.persistence, b.velocities[i]), b.weights[i])))
      == Scale(1.0 - a.incrTime / a.persistence, b.velocities[i])
  {
    FrictionVector(b.incrTime, b.weights[i], b.persistence, b.velocities[i]);
  }

  /** Phases three and four on a clean ledger with no neighbours but
      guiding tracks: friction alone removes `incrTime / persistence` of
      every sphere's velocity. */
  lemma FrictionStep(b: Agent, ns: seq<Neighbour>, s: Strengths,
                     exp: real -> real, unit: Vec3 -> Vec3, i: int)
    requires b.Valid() && b.forces == [] && s.repScale != 0.0 && 0 <= i < b.Count()
    requires forall k :: 0 <= k < |ns| ==> KindOf(ns[k].agentType) == Track
    ensures NeighboursFit(ns, b.Count())
    ensures Integrate(CollectExtForces(b, ns, s, exp, unit)).velocities[i]
      == Scale(1.0 - b.incrTime / b.persistence, b.velocities[i])
  {
    FrictionIntegrated(b, ns, s, exp, unit, i);
    FrictionFactor(b, i, b);
  }

  /** The velocity one integration pass gives a sphere whose net force is `f`. */
  lemma IntegrateVelocity(c: Agent, i: int, f: Vec3)
    requires c.Valid() && HintsBelow(c.forces, c.Count()) && 0 <= i < c.Count()
    requires NetForce(c.forces, i) == f
    ensures Integrate(c).velocities[i] == Add(c.velocities[i], Scale(c.incrTime, Div(f, c.weights[i])))
  {
  }

  /** The velocity after one round with no neighbours but guiding tracks. */
  lemma FreeRoundVelocity(a: Agent, futureGlobalTime: real, ns: seq<Neighbour>, s: Strengths,
                          exp: real -> real, unit: Vec3 -> Vec3, i: int)
    requires a.Valid() && a.forces == [] && s.repScale != 0.0 && 0 <= i < a.Count()
    requires forall k :: 0 <= k < |ns| ==> KindOf(ns[k].agentType) == Track
    ensures NeighboursFit(ns, a.Count())
    ensures Round(a, futureGlobalTime, ns, s, exp, unit).velocities[i]
      == Scale(1.0 - a.incrTime / a.persistence, Add(a.velocities[i], Scale(a.incrTime / a.persistence, a.desired)))
  {
    var a2 := Integrate(Advance(a, futureGlobalTime));
    DrivenStep(a, futureGlobalTime, i);
    DrivenFrame(a, futureGlobalTime);
    FrictionIntegrated(a2, ns, s, exp, unit, i);
    FrictionFactor(a2, i, a);
  }

  /** Phases one and two keep the count, the clock step and the persistence
      time, and leave the ledger empty. */
  lemma DrivenFrame(a: Agent, futureGlobalTime: real)
    requires a.Valid() && a.forces == []
    ensures var a2 := Integrate(Advance(a, futureGlobalTime));
      && a2.Valid() && a2.forces == [] && a2.Count() == a.Count()
      && a2.incrTime == a.incrTime && a2.persistence == a.persistence && a2.desired == a.desired
  {
  }

  /** Scaling commutes with taking differences. */
  lemma ScaleSub(c: real, a: Vec3, b: Vec3)
    ensures Sub(Scale(c, a), Scale(c, b)) == Scale(c, Sub(a, b))
  {
    assert c * a.x - c * b.x == c * (a.x - b.x);
    assert c * a.y - c * b.y == c * (a.y - b.y);
    assert c * a.z - c * b.z == c * (a.z - b.z);
  }

  /** `v + k d - d` is `v - (1 - k) d`. */
  lemma ShiftGap(k: real, v: Vec3, d: Vec3)
    ensures Sub(Add(v, Scale(k, d)), d) == Sub(v, Scale(1.0 - k, d))
  {
    assert v.x + k * d.x - d.x == v.x - (1.0 - k) * d.x;
    assert v.y + k * d.y - d.y == v.y - (1.0 - k) * d.y;
    assert v.z + k * d.z - d.z == v.z - (1.0 - k) * d.z;
  }

  /** `(1 - k) d + k d` is `d`. */
  lemma SplitSum(k: real, d: Vec3)
    ensures Add(Scale(1.0 - k, d), Scale(k, d)) == d
  {
    assert (1.0 - k) * d.x + k * d.x == d.x;
    assert (1.0 - k) * d.y + k * d.y == d.y;
    assert (1.0 - k) * d.z + k * d.z == d.z;
  }

  /** A free round with step fraction `k` toward the desired velocity `d`
      multiplies the gap to `(1 - k) * d` by `1 - k`; in particular
      `(1 - k) * d` is its fixed point. */
  lemma FreeStepGap(k: real, d: Vec3, v: Vec3)
    ensures Sub(Scale(1.0 - k, Add(v, Scale(k, d))), Scale(1.0 - k, d)) == Scale(1.0 - k, Sub(v, Scale(1.0 - k, d)))
    ensures Scale(1.0 - k, Add(Scale(1.0 - k, d), Scale(k, d))) == Scale(1.0 - k, d)
  {
    ScaleSub(1.0 - k, Add(v, Scale(k, d)), d);
    ShiftGap(k, v, d);
    SplitSum(k, d);
  }

  // ------------- a one-pass variant whose fixed point is the desired velocity -------------

  /** As written, a free round maps `v` to `(1 - k)(v + k d)`; started at
      `v = d` it lands `k (k d)` short of `d`. */
  lemma SplitGap(k: real, d: Vec3)
    ensures Sub(Scale(1.0 - k, Add(d, Scale(k, d))), d) == Scale(-k, Scale(k, d))
  {
  }

  /** A nucleus already moving at its desired velocity `d` does not keep it
      under the round as written: for any nonzero step fraction `k` and
      nonzero `d`, the round moves it off `d` by `k (k d)`. */
  lemma SplitSchemeMissesDesired(k: real, d: Vec3)
    requires k != 0.0 && d != Zero
    ensures Sub(Scale(1.0 - k, Add(d, Scale(k, d))), d) == Scale(-k, Scale(k, d))
    ensures Scale(1.0 - k, Add(d, Scale(k, d))) != d
  {
    SplitGap(k, d);
    var g := Scale(-k, Scale(k, d));
    if d.x != 0.0 {
      NonZeroProduct(k, d.x);
      NonZeroProduct(-k, k * d.x);
      assert g.x != 0.0;
    } else if d.y != 0.0 {
      NonZeroProduct(k, d.y);
      NonZeroProduct(-k, k * d.y);
      assert g.y != 0.0;
    } else {
      NonZeroProduct(k, d.z);
      NonZeroProduct(-k, k * d.z);
      assert g.z != 0.0;
    }
    SubZero(Scale(1.0 - k, Add(d, Scale(k, d))), d);
  }

  /** A one-pass variant: drive and friction act on the same velocity
      within one integration pass. Its fixed point is the desired velocity
      itself, which is what reading the persistence time as the time in
      which the desired velocity is reached asks for. */
  function OnePassStep(a: Agent): (r: Agent)
    requires a.Valid() && a.forces == []
    ensures r.Valid() && r.Count() == a.Count() && r.forces == []
    ensures r.desired == a.desired && r.persistence == a.persistence && r.incrTime == a.incrTime
  {
    var both := DriveForces(a) + FrictionForces(a);
    assert HintsBelow(both, a.Count()) by {
      forall k | 0 <= k < |both|
        ensures 0 <= both[k].hint < a.Count()
      {
        if k >= a.Count() {
          assert both[k] == FrictionForces(a)[k - a.Count()];
        }
      }
    }
    Integrate(a.(forces := both))
  }

  /** One component of `OnePassVector`, with `n` the net force component. */
  lemma OnePassComponent(dt: real, w: real, tau: real, x: real, y: real, n: real)
    requires w > 0.0 && tau > 0.0 && n == (w / tau) * x + (-w / tau) * y
    ensures y + dt * (n / w) == y + (dt / tau) * (x - y)
  {
    assert n == w * ((x - y) / tau);
    assert n / w == (x - y) / tau;
    assert dt * ((x - y) / tau) == (dt / tau) * (x - y);
  }

  lemma OnePassVector(dt: real, w: real, tau: real, v: Vec3, d: Vec3)
    requires w > 0.0 && tau > 0.0
    ensures Add(v, Scale(dt, Div(Add(Scale(w / tau, d), Scale(-w / tau, v)), w)))
      == Add(v, Scale(dt / tau, Sub(d, v)))
  {
    var n := Add(Scale(w / tau, d), Scale(-w / tau, v));
    OnePassComponent(dt, w, tau, d.x, v.x, n.x);
    OnePassComponent(dt, w, tau, d.y, v.y, n.y);
    OnePassComponent(dt, w, tau, d.z, v.z, n.z);
    var q := Div(n, w);
    assert q == Vec3(n.x / w, n.y / w, n.z / w);
  }

  /** In one pass the net force on every sphere is its driving force plus
      its friction. */
  lemma OnePassNet(a: Agent, i: int)
    requires a.Valid() && 0 <= i < a.Count()
    ensures NetForce(DriveForces(a) + FrictionForces(a), i)
      == Add(Scale(a.weights[i] / a.persistence, a.desired), Scale(-a.weights[i] / a.persistence, a.velocities[i]))
  {
    NetForceConcat(DriveForces(a), FrictionForces(a), i);
    NetForceOnePerSphere(DriveForces(a), i);
    NetForceOnePerSphere(FrictionForces(a), i);
  }

  /** The same step in the agent's own terms: the weight cancels out. */
  lemma OnePassFactor(a: Agent, i: int)
    requires a.Valid() && 0 <= i < a.Count()
    ensures Add(a.velocities[i], Scale(a.incrTime, Div(Add(Scale(a.weights[i] / a.persistence, a.desired),
                                                           Scale(-a.weights[i] / a.persistence, a.velocities[i])),
                                                       a.weights[i])))
      == Add(a.velocities[i], Scale(a.incrTime / a.persistence, Sub(a.desired, a.velocities[i])))
  {
    OnePassVector(a.incrTime, a.weights[i], a.persistence, a.velocities[i], a.desired);
  }

  /** In one pass every sphere moves the fraction `incrTime / persistence`
      of the way from its velocity to the desired one, whatever its weight. */
  lemma OnePassVelocity(a: Agent, i: int)
    requires a.Valid() && a.forces == [] && 0 <= i < a.Count()
    ensures OnePassStep(a).velocities[i]
      == Add(a.velocities[i], Scale(a.incrTime / a.persistence, Sub(a.desired, a.velocities[i])))
  {
    var c := a.(forces := DriveForces(a) + FrictionForces(a));
    OnePassNet(a, i);
    IntegrateVelocity(c, i, Add(Scale(a.weights[i] / a.persistence, a.desired),
                                Scale(-a.weights[i] / a.persistence, a.velocities[i])));
    OnePassFactor(a, i);
  }

  /** The pure form of the one-pass step: it multiplies the gap to `d` by
      `1 - k`, so `d` itself is its fixed point. */
  lemma OnePassGapScale(k: real, d: Vec3, v: Vec3, u: Vec3)
    requires u == Add(v, Scale(k, Sub(d, v)))
    ensures Sub(u, d) == Scale(1.0 - k, Sub(v, d))
    ensures v == d ==> u == d
  {
    assert u.x == v.x + k * (d.x - v.x) && u.y == v.y + k * (d.y - v.y) && u.z == v.z + k * (d.z - v.z);
    assert u.x - d.x == (1.0 - k) * (v.x - d.x);
    assert u.y - d.y == (1.0 - k) * (v.y - d.y);
    assert u.z - d.z == (1.0 - k) * (v.z - d.z);
  }

  /** The desired velocity is the one-pass step's fixed point: each step
      multiplies the gap to it by `1 - incrTime / persistence`, and a
      sphere already moving at the desired velocity keeps it. */
  lemma OnePassSettles(a: Agent, i: int)
    requires a.Valid() && a.forces == [] && 0 <= i < a.Count()
    ensures Sub(OnePassStep(a).velocities[i], a.desired)
      == Scale(1.0 - a.incrTime / a.persistence, Sub(a.velocities[i], a.desired))
    ensures a.velocities[i] == a.desired ==> OnePassStep(a).velocities[i] == a.desired
  {
    OnePassVelocity(a, i);
    OnePassGap(a, i, OnePassStep(a).velocities[i]);
  }

  /** `OnePassGapScale` in the agent's own terms. */
  lemma OnePassGap(a: Agent, i: int, u: Vec3)
    requires a.Valid() && 0 <= i < a.Count()
    requires u == Add(a.velocities[i], Scale(a.incrTime / a.persistence, Sub(a.desired, a.velocities[i])))
    ensures Sub(u, a.desired) == Scale(1.0 - a.incrTime / a.persistence, Sub(a.velocities[i], a.desired))
    ensures a.velocities[i] == a.desired ==> u == a.desired
  {
    OnePassGapScale(a.incrTime / a.persistence, a.desired, a.velocities[i], u);
  }
}

=== FILE: nucleus.dfy ===
/** One nucleus agent and the five phases of its simulation round:
    build the driving forces, integrate, collect the external forces,
    integrate again, publish the geometry. Every phase is a pure function
    from agent state to agent state. `exp` stands for `std::exp` and `unit`
    for `changeToUnitOrZero`; both are parameters, and the lemmas that need
    their properties ask for them through `ExpLike` and `UnitOrZeroMap`. */
module NucleusAgent {
  import opened Options
  import opened Vectors
  import opened SphereChain
  import opened Forces
  import opened Proximity

  datatype Agent = Agent(
    id: int,
    agentType: string,
    /** the published geometry, radii grown by the cytoplasm width */
    geometry: Spheres,
    /** the internal geometry the forces act on */
    future: Spheres,
    accels: seq<Vec3>,
    velocities: seq<Vec3>,
    weights: seq<real>,
    desired: Vec3,
    persistence: real,
    cytoplasmWidth: real,
    ignoreDistance: real,
    toNuclei: seq<ProximityPair>,
    toYolk: seq<ProximityPair>,
    tracks: seq<ProximityPair>,
    forces: Ledger,
    currTime: real,
    incrTime: real)
  {
    function Count(): nat {
      future.Count()
    }

    /** The agent's invariant: both geometries are well formed and have the
        same number of spheres, the per-sphere buffers match that number,
        and the divisors of the force law are positive. */
    predicate Valid() {
      && geometry.WellFormed()
      && future.WellFormed()
      && geometry.Count() == future.Count()
      && |accels| == future.Count()
      && |velocities| == future.Count()
      && |weights| == future.Count()
      && (forall i :: 0 <= i < |weights| ==> weights[i] > 0.0)
      && persistence > 0.0
    }

    /** The published geometry shows the internal one: same centres, radii
        grown by the cytoplasm width. */
    predicate Published() {
      && geometry.centres == future.centres
      && |geometry.radii| == |future.radii|
      && forall i :: 0 <= i < |future.radii| ==> geometry.radii[i] == future.radii[i] + cytoplasmWidth
    }
  }

  /** A new nucleus: both geometries are the given shape (not yet inflated),
      unit weights, no desired movement, persistence time 2, an empty
      ledger, and velocities and accelerations starting at zero. */
  function New(id: int, agentType: string, shape: Spheres, currTime: real, incrTime: real): (a: Agent)
    requires |shape.centres| == |shape.radii|
    ensures a.Valid() && a.Count() == |shape.centres|
    ensures a.forces == []
    ensures a.geometry.centres == a.future.centres == shape.centres
    ensures a.geometry.radii == a.future.radii == shape.radii
    ensures forall i :: 0 <= i < a.Count() ==> a.weights[i] == 1.0 && a.velocities[i] == Zero
    ensures a.desired == Zero && a.persistence == 2.0
    ensures a.cytoplasmWidth == 2.0 && a.ignoreDistance == 10.0
    ensures a.currTime == currTime && a.incrTime == incrTime
  {
    var n := |shape.centres|;
    var g := Make(shape.centres, shape.radii);
    Agent(id, agentType, g, g, Zeros(n), Zeros(n), seq(n, _ => 1.0), Zero, 2.0,
          2.0, 10.0, [], [], [], [], currTime, incrTime)
  }

  /** The velocity of one sphere, as another agent reads it. The debug build
      rejects an index past the last sphere; that is the `None` here. */
  function GetVelocityOfSphere(a: Agent, index: nat): (r: Option<Vec3>)
    ensures r.Some? <==> index < |a.velocities|
    ensures r.Some? ==> r.value == a.velocities[index]
  {
    if index >= |a.velocities| then None else Some(a.velocities[index])
  }

  /** A nearby nucleus as the scheduler hands it over: its type name, the
      velocities its `getVelocityOfSphere` reads, and the proximity pairs
      the distance routine reported against it. */
  function NeighbourOf(b: Agent, pairs: seq<ProximityPair>): (nb: Neighbour)
    ensures nb.agentType == b.agentType && nb.pairs == pairs
    ensures |nb.velocities| == |b.velocities|
    ensures forall k :: 0 <= k < |nb.velocities| ==> GetVelocityOfSphere(b, k) == Some(nb.velocities[k])
  {
    Neighbour(b.agentType, b.velocities, pairs)
  }

  /** A pair filed from a nearby nucleus carries that nucleus as its caller.
      Under the distance routine's contract the pair is usable by the force
      rules, and the opposing velocity the sliding rule reads from the
      caller is exactly what the nucleus's `getVelocityOfSphere` returns,
      never the debug build's out-of-range error. */
  lemma FiledPairReadsCaller(ns: seq<Neighbour>, m: int, b: Agent, pairs: seq<ProximityPair>, n: nat, j: int)
    requires 0 <= m < |ns| && ns[m] == NeighbourOf(b, pairs) && KindOf(b.agentType) == Nucleus
    requires NeighboursFit(ns, n) && 0 <= j < |pairs|
    ensures var pp := Filed(ns[m])[j];
      && NucleusPairFits(pp, n)
      && GetVelocityOfSphere(b, pp.otherHint) == Some(pp.caller.value[pp.otherHint])
  {
    var pp := Filed(ns[m])[j];
    assert pp == pairs[j].(caller := Some(b.velocities));
    assert 0 <= ns[m].pairs[j].localHint < n && 0 <= ns[m].pairs[j].otherHint < |ns[m].velocities|;
  }

  // ------------- integration -------------

  /** One explicit integration pass: every sphere's net force over its
      weight is its acceleration, the velocity grows by `incrTime` times
      it, the centre moves by `incrTime` times the new velocity; then the
      ledger is emptied. Radii, weights and the published geometry stay. */
  function Integrate(a: Agent): (r: Agent)
    requires a.Valid() && HintsBelow(a.forces, a.Count())
    ensures r.Valid() && r.Count() == a.Count()
    ensures r.forces == []
    ensures r.future.radii == a.future.radii
    ensures forall i :: 0 <= i < a.Count() ==>
      && r.accels[i] == Div(NetForce(a.forces, i), a.weights[i])
      && r.velocities[i] == Add(a.velocities[i], Scale(a.incrTime, Div(NetForce(a.forces, i), a.weights[i])))
      && r.future.centres[i] == Add(a.future.centres[i], Scale(a.incrTime, r.velocities[i]))
    ensures r.(accels := a.accels, velocities := a.velocities, future := a.future, forces := a.forces) == a
  {
    var n := a.Count();
    var sums := Accumulate(a.forces, n);
    var accels := seq(n, i requires 0 <= i < n => Div(sums[i], a.weights[i]));
    var velocities := seq(n, i requires 0 <= i < n => Add(a.velocities[i], Scale(a.incrTime, accels[i])));
    var centres := seq(n, i requires 0 <= i < n => Add(a.future.centres[i], Scale(a.incrTime, velocities[i])));
    a.(accels := accels, velocities := velocities, future := Make(centres, a.future.radii), forces := [])
  }

  /** A sphere that feels no net force keeps its velocity and coasts. */
  lemma IntegrateUnforced(a: Agent, i: int)
    requires a.Valid() && HintsBelow(a.forces, a.Count())
    requires 0 <= i < a.Count() && NetForce(a.forces, i) == Zero
    ensures Integrate(a).velocities[i] == a.velocities[i]
    ensures Integrate(a).future.centres[i] == Add(a.future.centres[i], Scale(a.incrTime, a.velocities[i]))
  {
    var r := Integrate(a);
    assert r.velocities[i] == Add(a.velocities[i], Scale(a.incrTime, Div(Zero, a.weights[i])));
    StillStep(a.velocities[i], a.incrTime, a.weights[i]);
  }

  /** Zero force over any weight changes nothing in a step. */
  lemma StillStep(v: Vec3, dt: real, w: real)
    requires w != 0.0
    ensures Add(v, Scale(dt, Div(Zero, w))) == v
  {
  }

  /** In particular a sphere no ledger entry names. */
  lemma IntegrateUntouched(a: Agent, i: int)
    requires a.Valid() && HintsBelow(a.forces, a.Count())
    requires 0 <= i < a.Count()
    requires forall k :: 0 <= k < |a.forces| ==> a.forces[k].hint != i
    ensures Integrate(a).velocities[i] == a.velocities[i]
    ensures Integrate(a).future.centres[i] == Add(a.future.centres[i], Scale(a.incrTime, a.velocities[i]))
  {
    NetForceAbsent(a.forces, i);
    IntegrateUnforced(a, i);
  }

  // ------------- internal forces -------------

  /** The driving force of every sphere: weight over persistence time times
      the desired velocity, applied at the sphere's centre. */
  function DriveForces(a: Agent): (r: Ledger)
    requires a.Valid()
    ensures |r| == a.Count() && OnePerSphere(r)
    ensures forall k :: 0 <= k < |r| ==>
      r[k].ftype == Drive && r[k].base == a.future.centres[k]
      && r[k].vec == Scale(a.weights[k] / a.persistence, a.desired)
  {
    seq(a.Count(), i requires 0 <= i < a.Count() =>
      ForceVector(Scale(a.weights[i] / a.persistence, a.desired), a.future.centres[i], i, Drive))
  }

  /** The friction force of every sphere: minus weight over persistence
      time times the sphere's velocity, applied at its centre. */
  function FrictionForces(a: Agent): (r: Ledger)
    requires a.Valid()
    ensures |r| == a.Count() && OnePerSphere(r)
    ensures forall k :: 0 <= k < |r| ==>
      r[k].ftype == Friction && r[k].base == a.future.centres[k]
      && r[k].vec == Scale(-a.weights[k] / a.persistence, a.velocities[k])
  {
    seq(a.Count(), i requires 0 <= i < a.Count() =>
      ForceVector(Scale(-a.weights[i] / a.persistence, a.velocities[i]), a.future.centres[i], i, Friction))
  }

  /** Phase one. The behavioural hook of the base agent is not part of this
      model; `futureGlobalTime` is what it would receive. The driving forces
      are appended to the ledger and the local clock advances by one step. */
  function Advance(a: Agent, futureGlobalTime: real): (r: Agent)
    requires a.Valid()
    ensures r.Valid() && r.Count() == a.Count()
    ensures r == a.(forces := r.forces, currTime := a.currTime + a.incrTime)
    ensures |r.forces| == |a.forces| + a.Count() && r.forces[..|a.forces|] == a.forces
    ensures forall k :: |a.forces| <= k < |r.forces| ==>
      r.forces[k].ftype == Drive && r.forces[k].hint == k - |a.forces|
    ensures HintsBelow(a.forces, a.Count()) ==> HintsBelow(r.forces, r.Count())
  {
    var r := a.(forces := a.forces + DriveForces(a), currTime := a.currTime + a.incrTime);
    assert r.forces[..|a.forces|] == a.forces;
    r
  }

  /** Phase one adds exactly the driving force to every sphere's net force. */
  lemma AdvanceDrivesEverySphere(a: Agent, futureGlobalTime: real, i: int)
    requires a.Valid() && 0 <= i < a.Count()
    ensures NetForce(Advance(a, futureGlobalTime).forces, i)
      == Add(NetForce(a.forces, i), Scale(a.weights[i] / a.persistence, a.desired))
  {
    var drive := DriveForces(a);
    assert Advance(a, futureGlobalTime).forces == a.forces + drive;
    NetForceConcat(a.forces, drive, i);
    NetForceOnePerSphere(drive, i);
  }

  // ------------- external forces -------------

  /** The forces one proximity pair against a nucleus produces, all on the
      pair's local sphere and at its centre:
      - no contact (`distance > 0`) and closer than the cutoff: a repulsion
        along the direction from the other point to the local one;
      - no contact and at or beyond the cutoff: nothing;
      - contact: a body force along the direction from the local point to
        the other one (the surfaces have crossed), then a sliding force, the
        part of the velocity difference to the opposing sphere that is
        orthogonal to that direction, scaled like the driving force. */
  function NucleusPairForces(a: Agent, s: Strengths, exp: real -> real, unit: Vec3 -> Vec3,
                             pp: ProximityPair): (r: Ledger)
    requires a.Valid() && s.repScale != 0.0 && NucleusPairFits(pp, a.Count())
    ensures forall k :: 0 <= k < |r| ==>
      r[k].hint == pp.localHint && r[k].base == a.future.centres[pp.localHint]
    ensures pp.distance >= RepulsionCutoff ==> r == []
    ensures 0.0 < pp.distance < RepulsionCutoff ==> |r| == 1 && r[0].ftype == Repulsive
    ensures pp.distance <= 0.0 ==> |r| == 2 && r[0].ftype == Body && r[1].ftype == Slide
  {
    var h := pp.localHint;
    var c := a.future.centres[h];
    if pp.distance > 0.0 then
      if pp.distance < RepulsionCutoff then
        var f := unit(Sub(pp.localPos, pp.otherPos));
        [ForceVector(Scale(RepulsionScale(s, exp, pp.distance), f), c, h, Repulsive)]
      else []
    else
      var f := unit(Sub(pp.otherPos, pp.localPos));
      [ForceVector(Scale(BodyScale(s, -pp.distance), f), c, h, Body),
       ForceVector(SlideForce(a, s, unit, pp), c, h, Slide)]
  }

  /** The sliding force of a contact pair: the part of the velocity
      difference to the opposing sphere that is orthogonal to the contact
      direction, scaled like the driving force. */
  function SlideForce(a: Agent, s: Strengths, unit: Vec3 -> Vec3, pp: ProximityPair): Vec3
    requires a.Valid() && NucleusPairFits(pp, a.Count())
  {
    var h := pp.localHint;
    var f := unit(Sub(pp.otherPos, pp.localPos));
    var g := Sub(pp.caller.value[pp.otherHint], a.velocities[h]);
    Scale(SlideFactor(a, s, h), Tangential(f, g))
  }

  /** The factor of the sliding force on sphere `h`: `slideScale` times the
      factor of its driving force. */
  function SlideFactor(a: Agent, s: Strengths, h: int): real
    requires a.Valid() && 0 <= h < a.Count()
  {
    s.slideScale * a.weights[h] / a.persistence
  }

  /** The forces of all pairs against nuclei, in list order. */
  function NucleiForces(a: Agent, s: Strengths, exp: real -> real, unit: Vec3 -> Vec3,
                        pairs: seq<ProximityPair>): (r: Ledger)
    requires a.Valid() && s.repScale != 0.0
    requires forall j :: 0 <= j < |pairs| ==> NucleusPairFits(pairs[j], a.Count())
    ensures HintsBelow(r, a.Count())
    ensures |r| <= 2 * |pairs|
    decreases |pairs|
  {
    if |pairs| == 0 then []
    else
      var init := pairs[..|pairs| - 1];
      NucleiForces(a, s, exp, unit, init) + NucleusPairForces(a, s, exp, unit, pairs[|pairs| - 1])
  }

  /** Everything one nucleus pair pushes with, whichever sphere it names:
      its repulsion, or its body force plus its sliding force. */
  function PairPush(a: Agent, s: Strengths, exp: real -> real, unit: Vec3 -> Vec3, pp: ProximityPair): Vec3
    requires a.Valid() && s.repScale != 0.0 && NucleusPairFits(pp, a.Count())
  {
    var r := NucleusPairForces(a, s, exp, unit, pp);
    if pp.distance >= RepulsionCutoff then Zero
    else if pp.distance > 0.0 then r[0].vec
    else Add(r[0].vec, r[1].vec)
  }

  /** The reference for the nucleus loop: the sum, over the pairs whose
      local sphere is `i`, of everything each of them pushes with. */
  function NucleusPull(a: Agent, s: Strengths, exp: real -> real, unit: Vec3 -> Vec3,
                       pairs: seq<ProximityPair>, i: int): Vec3
    requires a.Valid() && s.repScale != 0.0
    requires forall j :: 0 <= j < |pairs| ==> NucleusPairFits(pairs[j], a.Count())
    decreases |pairs|
  {
    if |pairs| == 0 then Zero
    else
      var pp := pairs[|pairs| - 1];
      Add(NucleusPull(a, s, exp, unit, pairs[..|pairs| - 1], i),
          if pp.localHint == i then PairPush(a, s, exp, unit, pp) else Zero)
  }

  /** One pair gives its local sphere all it pushes with, and every other
      sphere nothing. */
  lemma PairNetForce(a: Agent, s: Strengths, exp: real -> real, unit: Vec3 -> Vec3,
                     pp: ProximityPair, i: int)
    requires a.Valid() && s.repScale != 0.0 && NucleusPairFits(pp, a.Count())
    ensures NetForce(NucleusPairForces(a, s, exp, unit, pp), i)
      == if pp.localHint == i then PairPush(a, s, exp, unit, pp) else Zero
  {
    var r := NucleusPairForces(a, s, exp, unit, pp);
    if pp.localHint != i {
      NetForceAbsent(r, i);
    } else if pp.distance >= RepulsionCutoff {
      assert r == [];
    } else if pp.distance > 0.0 {
      assert r == [] + [r[0]];
      NetForceSnocFirst([], r[0], i);
    } else {
      assert r == [r[0]] + [r[1]];
      assert [r[0]] == [] + [r[0]];
      NetForceSnocFirst([], r[0], i);
      NetForceSnoc([r[0]], r[1], i);
    }
  }

  /** The nucleus loop gives sphere `i` exactly the pushes of the pairs whose
      local sphere is `i`, all of each of them, and nothing from any other
      pair. */
  lemma {:induction false} NucleiPull(a: Agent, s: Strengths, exp: real -> real, unit: Vec3 -> Vec3,
                                      pairs: seq<ProximityPair>, i: int)
    requires a.Valid() && s.repScale != 0.0
    requires forall j :: 0 <= j < |pairs| ==> NucleusPairFits(pairs[j], a.Count())
    ensures NetForce(NucleiForces(a, s, exp, unit, pairs), i) == NucleusPull(a, s, exp, unit, pairs, i)
    decreases |pairs|
  {
    if |pairs| == 0 {
      assert NucleiForces(a, s, exp, unit, pairs) == [];
    } else {
      var init := pairs[..|pairs| - 1];
      var pp := pairs[|pairs| - 1];
      NucleiPull(a, s, exp, unit, init, i);
      NetForceConcat(NucleiForces(a, s, exp, unit, init), NucleusPairForces(a, s, exp, unit, pp), i);
      PairNetForce(a, s, exp, unit, pp, i);
    }
  }

  /** A sphere that no nucleus pair names gets no force from the nucleus
      loop. */
  lemma {:induction false} NucleiForcesLocal(a: Agent, s: Strengths, exp: real -> real, unit: Vec3 -> Vec3,
                                             pairs: seq<ProximityPair>, i: int)
    requires a.Valid() && s.repScale != 0.0
    requires forall j :: 0 <= j < |pairs| ==> NucleusPairFits(pairs[j], a.Count())
    requires forall j :: 0 <= j < |pairs| ==> pairs[j].localHint != i
    ensures NetForce(NucleiForces(a, s, exp, unit, pairs), i) == Zero
    decreases |pairs|
  {
    if |pairs| > 0 {
      var init := pairs[..|pairs| - 1];
      var pp := pairs[|pairs| - 1];
      NucleiForcesLocal(a, s, exp, unit, init, i);
      NetForceConcat(NucleiForces(a, s, exp, unit, init), NucleusPairForces(a, s, exp, unit, pp), i);
      NetForceAbsent(NucleusPairForces(a, s, exp, unit, pp), i);
    }
  }

  /** The attraction one yolk pair exerts: towards the hinter point, with
      the clamped hinter magnitude. */
  function HinterVector(s: Strengths, unit: Vec3 -> Vec3, pp: ProximityPair): Vec3 {
    Scale(HinterScale(s, pp.distance), unit(Sub(pp.otherPos, pp.localPos)))
  }

  /** The forces of one yolk pair: a pair of the first sphere applies its
      attraction, unchanged, to every sphere of the chain; any other pair
      applies nothing. */
  function HinterPairForces(a: Agent, s: Strengths, unit: Vec3 -> Vec3, pp: ProximityPair): (r: Ledger)
    requires a.Valid()
    ensures |r| == (if pp.localHint == 0 then a.Count() else 0)
    ensures OnePerSphere(r)
    ensures forall k :: 0 <= k < |r| ==>
      r[k].vec == HinterVector(s, unit, pp) && r[k].ftype == Hinter && r[k].base == a.future.centres[k]
  {
    if pp.localHint == 0 then
      seq(a.Count(), i requires 0 <= i < a.Count() =>
        ForceVector(HinterVector(s, unit, pp), a.future.centres[i], i, Hinter))
    else []
  }

  /** The forces of all yolk pairs, in list order. */
  function HinterForces(a: Agent, s: Strengths, unit: Vec3 -> Vec3, pairs: seq<ProximityPair>): (r: Ledger)
    requires a.Valid()
    ensures HintsBelow(r, a.Count())
    ensures forall k :: 0 <= k < |r| ==> r[k].ftype == Hinter
    decreases |pairs|
  {
    if |pairs| == 0 then []
    else HinterForces(a, s, unit, pairs[..|pairs| - 1]) + HinterPairForces(a, s, unit, pairs[|pairs| - 1])
  }

  /** The total attraction of the yolk pairs that belong to the first sphere. */
  function HinterPull(s: Strengths, unit: Vec3 -> Vec3, pairs: seq<ProximityPair>): Vec3
    decreases |pairs|
  {
    if |pairs| == 0 then Zero
    else
      var pp := pairs[|pairs| - 1];
      Add(HinterPull(s, unit, pairs[..|pairs| - 1]), if pp.localHint == 0 then HinterVector(s, unit, pp) else Zero)
  }

  /** The hinter correction is rigid: every sphere receives the same net
      hinter force, the summed attraction of the first sphere's yolk pairs. */
  lemma {:induction false} HinterRigid(a: Agent, s: Strengths, unit: Vec3 -> Vec3,
                                       pairs: seq<ProximityPair>, i: int)
    requires a.Valid() && 0 <= i < a.Count()
    ensures NetForce(HinterForces(a, s, unit, pairs), i) == HinterPull(s, unit, pairs)
    decreases |pairs|
  {
    if |pairs| > 0 {
      var init := pairs[..|pairs| - 1];
      var pp := pairs[|pairs| - 1];
      var last := HinterPairForces(a, s, unit, pp);
      var share := if pp.localHint == 0 then HinterVector(s, unit, pp) else Zero;
      assert HinterForces(a, s, unit, pairs) == HinterForces(a, s, unit, init) + last;
      assert HinterPull(s, unit, pairs) == Add(HinterPull(s, unit, init), share);
      HinterRigid(a, s, unit, init, i);
      NetForceConcat(HinterForces(a, s, unit, init), last, i);
      if pp.localHint == 0 {
        NetForceOnePerSphere(last, i);
        assert NetForce(last, i) == share;
      } else {
        assert last == [];
        assert NetForce(last, i) == share;
      }
    }
  }

  /** Phase three. Friction is appended first; then the neighbours are
      filed by kind into the three proximity lists (which replace last
      round's); then the pairs against nuclei and the pairs against the
      yolk are turned into forces. Pairs against guiding tracks are kept
      but produce no force. */
  function CollectExtForces(a: Agent, ns: seq<Neighbour>, s: Strengths,
                            exp: real -> real, unit: Vec3 -> Vec3): (r: Agent)
    requires a.Valid() && s.repScale != 0.0 && NeighboursFit(ns, a.Count())
    ensures r.Valid() && r.Count() == a.Count()
    ensures r.toNuclei == Route(ns, Nucleus) && r.toYolk == Route(ns, Yolk) && r.tracks == Route(ns, Track)
    ensures r == a.(toNuclei := r.toNuclei, toYolk := r.toYolk, tracks := r.tracks, forces := r.forces)
    ensures forall j :: 0 <= j < |r.toNuclei| ==> NucleusPairFits(r.toNuclei[j], a.Count())
    ensures r.forces == a.forces + FrictionForces(a) + NucleiForces(a, s, exp, unit, r.toNuclei)
                        + HinterForces(a, s, unit, r.toYolk)
    ensures HintsBelow(a.forces, a.Count()) ==> HintsBelow(r.forces, r.Count())
  {
    var nuclei := Route(ns, Nucleus);
    RouteFits(ns, a.Count());
    var yolk := Route(ns, Yolk);
    a.(toNuclei := nuclei, toYolk := yolk, tracks := Route(ns, Track),
       forces := a.forces + FrictionForces(a) + NucleiForces(a, s, exp, unit, nuclei)
                 + HinterForces(a, s, unit, yolk))
  }

  /** Per sphere, the external phase adds friction, the forces of the
      nucleus pairs and the whole hinter pull to what the ledger held. */
  lemma ExtForcesPerSphere(a: Agent, ns: seq<Neighbour>, s: Strengths,
                           exp: real -> real, unit: Vec3 -> Vec3, i: int)
    requires a.Valid() && s.repScale != 0.0 && NeighboursFit(ns, a.Count())
    requires 0 <= i < a.Count()
    ensures NetForce(CollectExtForces(a, ns, s, exp, unit).forces, i)
      == Add(Add(Add(NetForce(a.forces, i), Scale(-a.weights[i] / a.persistence, a.velocities[i])),
                 NucleusPull(a, s, exp, unit, Route(ns, Nucleus), i)),
             HinterPull(s, unit, Route(ns, Yolk)))
  {
    RouteFits(ns, a.Count());
    var fr := FrictionForces(a);
    var nu := NucleiForces(a, s, exp, unit, Route(ns, Nucleus));
    var hi := HinterForces(a, s, unit, Route(ns, Yolk));
    NetForceConcat(a.forces + fr + nu, hi, i);
    NetForceConcat(a.forces + fr, nu, i);
    NetForceConcat(a.forces, fr, i);
    NetForceOnePerSphere(fr, i);
    HinterRigid(a, s, unit, Route(ns, Yolk), i);
    NucleiPull(a, s, exp, unit, Route(ns, Nucleus), i);
  }

  /** Adding a guiding-track neighbour changes the track list only: the
      ledger and the other two lists come out the same. */
  lemma TracksExertNoForce(a: Agent, ns: seq<Neighbour>, t: Neighbour, s: Strengths,
                           exp: real -> real, unit: Vec3 -> Vec3)
    requires a.Valid() && s.repScale != 0.0 && NeighboursFit(ns, a.Count())
    requires KindOf(t.agentType) == Track
    ensures NeighboursFit(ns + [t], a.Count())
    ensures CollectExtForces(a, ns + [t], s, exp, unit).forces == CollectExtForces(a, ns, s, exp, unit).forces
    ensures CollectExtForces(a, ns + [t], s, exp, unit).toNuclei == CollectExtForces(a, ns, s, exp, unit).toNuclei
    ensures CollectExtForces(a, ns + [t], s, exp, unit).toYolk == CollectExtForces(a, ns, s, exp, unit).toYolk
    ensures CollectExtForces(a, ns + [t], s, exp, unit).tracks == CollectExtForces(a, ns, s, exp, unit).tracks + Filed(t)
  {
    var ns' := ns + [t];
    assert ns'[..|ns|] == ns;
    RouteSkips(ns, t, Nucleus);
    RouteSkips(ns, t, Yolk);
    assert Route(ns', Track) == Route(ns, Track) + Filed(t);
    assert NeighboursFit(ns', a.Count()) by {
      forall k, j | 0 <= k < |ns'| && KindOf(ns'[k].agentType) == Nucleus && 0 <= j < |ns'[k].pairs|
        ensures 0 <= ns'[k].pairs[j].localHint < a.Count() && 0 <= ns'[k].pairs[j].otherHint < |ns'[k].velocities|
      {
        assert k < |ns|;
        assert ns'[k] == ns[k];
      }
    }
  }

  // ------------- publication -------------

  /** Phase five: the published geometry becomes the internal one with
      every radius grown by the cytoplasm width; nothing else changes. */
  function Publish(a: Agent): (r: Agent)
    requires a.Valid()
    ensures r.Valid() && r.Published()
    ensures r == a.(geometry := r.geometry)
    ensures r.geometry.box.Some? <==> a.Count() > 0
    ensures r.geometry.box.Some? ==> forall i :: 0 <= i < a.Count() ==>
      Encloses(r.geometry.box.value, a.future.centres[i], a.future.radii[i] + a.cytoplasmWidth)
  {
    a.(geometry := Inflate(a.future, a.cytoplasmWidth))
  }

  /** Publishing twice is publishing once. */
  lemma PublishIdempotent(a: Agent)
    requires a.Valid()
    ensures Publish(Publish(a)) == Publish(a)
  {
  }

  /** A published agent can recover its internal radii from the exposed
      ones, and publishing it again changes nothing. */
  lemma PublishedIsFixedPoint(a: Agent)
    requires a.Valid() && a.Published()
    ensures forall i :: 0 <= i < a.Count() ==> a.future.radii[i] == a.geometry.radii[i] - a.cytoplasmWidth
    ensures Publish(a) == a
  {
    assert Publish(a).geometry.radii == a.geometry.radii;
  }

  // ------------- one round -------------

  /** Phases one and two: drive, then integrate. The clock advances by one
      step, the ledger ends empty, and only the motion state changes. */
  function DrivePhase(a: Agent, futureGlobalTime: real): (r: Agent)
    requires a.Valid() && HintsBelow(a.forces, a.Count())
    ensures r.Valid() && r.Count() == a.Count() && r.forces == []
    ensures r.currTime == a.currTime + a.incrTime
    ensures r.future.radii == a.future.radii && r.weights == a.weights
    ensures r.desired == a.desired && r.persistence == a.persistence && r.incrTime == a.incrTime
  {
    Integrate(Advance(a, futureGlobalTime))
  }

  /** Phases three and four: collect the external forces, then integrate.
      The ledger ends empty and the proximity lists are those of `ns`. */
  function ContactPhase(b: Agent, ns: seq<Neighbour>, s: Strengths,
                        exp: real -> real, unit: Vec3 -> Vec3): (r: Agent)
    requires b.Valid() && HintsBelow(b.forces, b.Count())
    requires s.repScale != 0.0 && NeighboursFit(ns, b.Count())
    ensures r.Valid() && r.Count() == b.Count() && r.forces == []
    ensures r.currTime == b.currTime
    ensures r.future.radii == b.future.radii && r.weights == b.weights
    ensures r.desired == b.desired && r.persistence == b.persistence && r.incrTime == b.incrTime
    ensures r.toNuclei == Route(ns, Nucleus) && r.toYolk == Route(ns, Yolk) && r.tracks == Route(ns, Track)
  {
    Integrate(CollectExtForces(b, ns, s, exp, unit))
  }

  /** The five phases in their fixed order. The neighbours are those the
      scheduler reports after the first integration pass. */
  function Round(a: Agent, futureGlobalTime: real, ns: seq<Neighbour>, s: Strengths,
                 exp: real -> real, unit: Vec3 -> Vec3): (r: Agent)
    requires a.Valid() && HintsBelow(a.forces, a.Count())
    requires s.repScale != 0.0 && NeighboursFit(ns, a.Count())
    ensures r.Valid() && r.Published() && r.Count() == a.Count()
    ensures r.forces == []
    ensures r.currTime == a.currTime + a.incrTime
    ensures r.future.radii == a.future.radii && r.weights == a.weights
    ensures r.desired == a.desired && r.persistence == a.persistence && r.incrTime == a.incrTime
    ensures r.toNuclei == Route(ns, Nucleus) && r.toYolk == Route(ns, Yolk) && r.tracks == Route(ns, Track)
  {
    Publish(ContactPhase(DrivePhase(a, futureGlobalTime), ns, s, exp, unit))
  }
}

=== FILE: proximity.dfy ===
/** Proximity data a nucleus receives from its collaborators each round.
    The neighbour query of the scheduler and the geometry-to-geometry
    distance routine are not part of this model: what they return is taken
    as input, one `Neighbour` per nearby agent, carrying the agent's type
    name, the velocities it exposes through its read-only accessor, and the
    proximity pairs the distance routine reported against it. */
module Proximity {
  import opened Options
  import opened Vectors

  /** A near or overlapping pair of features of two geometries. `distance`
      is signed: positive means no contact, zero or negative means overlap
      by `-distance`. `caller` is the opposing nucleus, represented by its
      per-sphere velocities; only pairs against nuclei carry one. */
  datatype ProximityPair = ProximityPair(
    distance: real,
    localPos: Vec3,
    otherPos: Vec3,
    localHint: int,
    otherHint: int,
    caller: Option<seq<Vec3>>)

  datatype Kind = Nucleus | Yolk | Track

  /** Agents are routed by the first letter of their type name: 'n' for
      nuclei, 'y' for the yolk (the shape hinter), anything else is a
      guiding track. An empty name reads as the terminating NUL character
      and so counts as a track. */
  function KindOf(agentType: string): (k: Kind)
    ensures k == Nucleus <==> |agentType| > 0 && agentType[0] == 'n'
    ensures k == Yolk <==> |agentType| > 0 && agentType[0] == 'y'
  {
    var first := if |agentType| == 0 then '\0' else agentType[0];
    if first == 'n' then Nucleus
    else if first == 'y' then Yolk
    else Track
  }

  datatype Neighbour = Neighbour(agentType: string, velocities: seq<Vec3>, pairs: seq<ProximityPair>)

  /** The pairs of one neighbour as the distance routine files them: pairs
      against a nucleus remember that nucleus, the others remember nothing. */
  function Filed(nb: Neighbour): (r: seq<ProximityPair>)
    ensures |r| == |nb.pairs|
    ensures forall j :: 0 <= j < |r| ==>
      r[j] == nb.pairs[j].(caller := if KindOf(nb.agentType) == Nucleus then Some(nb.velocities) else None)
  {
    var caller := if KindOf(nb.agentType) == Nucleus then Some(nb.velocities) else None;
    seq(|nb.pairs|, j requires 0 <= j < |nb.pairs| => nb.pairs[j].(caller := caller))
  }

  /** The proximity list of one kind, built by visiting the neighbours in
      order and appending the pairs of those of that kind. */
  function Route(ns: seq<Neighbour>, kind: Kind): (r: seq<ProximityPair>)
    ensures forall j :: 0 <= j < |r| ==> (r[j].caller.Some? <==> kind == Nucleus)
    decreases |ns|
  {
    if |ns| == 0 then []
    else
      var nb := ns[|ns| - 1];
      Route(ns[..|ns| - 1], kind) + (if KindOf(nb.agentType) == kind then Filed(nb) else [])
  }

  /** The number of pairs the distance routine reported in all. */
  function PairCount(ns: seq<Neighbour>): nat
    decreases |ns|
  {
    if |ns| == 0 then 0 else PairCount(ns[..|ns| - 1]) + |ns[|ns| - 1].pairs|
  }

  /** The three lists together hold exactly as many pairs as were
      reported. */
  lemma {:induction false} RoutePartitions(ns: seq<Neighbour>)
    ensures |Route(ns, Nucleus)| + |Route(ns, Yolk)| + |Route(ns, Track)| == PairCount(ns)
    decreases |ns|
  {
    if |ns| > 0 {
      RoutePartitions(ns[..|ns| - 1]);
    }
  }

  /** A neighbour of another kind leaves a list as it was. */
  lemma RouteSkips(ns: seq<Neighbour>, nb: Neighbour, kind: Kind)
    requires KindOf(nb.agentType) != kind
    ensures Route(ns + [nb], kind) == Route(ns, kind)
  {
    assert (ns + [nb])[..|ns|] == ns;
  }

  /** No neighbour of a kind, no pair of that kind. */
  lemma {:induction false} RouteOfAbsentKind(ns: seq<Neighbour>, kind: Kind)
    requires forall k :: 0 <= k < |ns| ==> KindOf(ns[k].agentType) != kind
    ensures Route(ns, kind) == []
    decreases |ns|
  {
    if |ns| > 0 {
      var init := ns[..|ns| - 1];
      assert ns == init + [ns[|ns| - 1]];
      RouteOfAbsentKind(init, kind);
      RouteSkips(init, ns[|ns| - 1], kind);
    }
  }

  /** What the source needs of a pair against a nucleus of `n` spheres: the
      local sphere exists, the opposing nucleus is known, and so is its
      sphere. */
  predicate NucleusPairFits(pp: ProximityPair, n: nat) {
    && 0 <= pp.localHint < n
    && pp.caller.Some?
    && 0 <= pp.otherHint < |pp.caller.value|
  }

  /** The distance routine's contract towards a nucleus of `n` spheres:
      sphere indices it reports against nuclei are in range on both sides. */
  predicate NeighboursFit(ns: seq<Neighbour>, n: nat) {
    forall k, j :: 0 <= k < |ns| && KindOf(ns[k].agentType) == Nucleus && 0 <= j < |ns[k].pairs| ==>
      0 <= ns[k].pairs[j].localHint < n && 0 <= ns[k].pairs[j].otherHint < |ns[k].velocities|
  }

  /** Filing neighbours that keep the distance routine's contract yields a
      nuclei list whose every pair can be used by the force rules. */
  lemma {:induction false} RouteFits(ns: seq<Neighbour>, n: nat)
    requires NeighboursFit(ns, n)
    ensures forall j :: 0 <= j < |Route(ns, Nucleus)| ==> NucleusPairFits(Route(ns, Nucleus)[j], n)
    decreases |ns|
  {
    if |ns| > 0 {
      var init := ns[..|ns| - 1];
      var nb := ns[|ns| - 1];
      assert NeighboursFit(init, n) by {
        forall k, j | 0 <= k < |init| && KindOf(init[k].agentType) == Nucleus && 0 <= j < |init[k].pairs|
          ensures 0 <= init[k].pairs[j].localHint < n && 0 <= init[k].pairs[j].otherHint < |init[k].velocities|
        {
          assert init[k] == ns[k];
        }
      }
      RouteFits(init, n);
      var tail := if KindOf(nb.agentType) == Nucleus then Filed(nb) else [];
      assert Route(ns, Nucleus) == Route(init, Nucleus) + tail;
      forall j | 0 <= j < |tail|
        ensures NucleusPairFits(tail[j], n)
      {
        assert ns[|ns| - 1] == nb;
      }
    }
  }
}

=== FILE: spheres.dfy ===
/** The sphere-chain geometry of a nucleus: an ordered sequence of spheres,
    each a centre and a radius, with a cached axis-aligned bounding box.
    The code of `Spheres` and of `updateOwnAABB` is not part of this model;
    the box is modelled as the hull of the per-sphere boxes, which is what
    every caller relies on: it encloses every sphere of the chain. */
module SphereChain {
  import opened Options
  import opened Vectors

  datatype Box = Box(lo: Vec3, hi: Vec3)

  datatype Spheres = Spheres(centres: seq<Vec3>, radii: seq<real>, box: Option<Box>)
  {
    function Count(): nat {
      |centres|
    }

    /** One radius per centre, and the cached box is up to date. */
    predicate WellFormed() {
      |centres| == |radii| && box == BoundingBox(centres, radii)
    }
  }

  /** The box `b` holds the whole sphere of centre `c` and radius `r`. */
  predicate Encloses(b: Box, c: Vec3, r: real) {
    && b.lo.x <= c.x - r && c.x + r <= b.hi.x
    && b.lo.y <= c.y - r && c.y + r <= b.hi.y
    && b.lo.z <= c.z - r && c.z + r <= b.hi.z
  }

  function SphereBox(c: Vec3, r: real): Box {
    Box(Vec3(c.x - r, c.y - r, c.z - r), Vec3(c.x + r, c.y + r, c.z + r))
  }

  function Hull(a: Box, b: Box): Box {
    Box(Vec3(Min(a.lo.x, b.lo.x), Min(a.lo.y, b.lo.y), Min(a.lo.z, b.lo.z)),
        Vec3(Max(a.hi.x, b.hi.x), Max(a.hi.y, b.hi.y), Max(a.hi.z, b.hi.z)))
  }

  /** The box `updateOwnAABB` caches: none for an empty chain, otherwise a
      box enclosing every sphere. */
  function BoundingBox(centres: seq<Vec3>, radii: seq<real>): (r: Option<Box>)
    requires |centres| == |radii|
    ensures r.Some? <==> |centres| > 0
    ensures r.Some? ==> forall i :: 0 <= i < |centres| ==> Encloses(r.value, centres[i], radii[i])
    decreases |centres|
  {
    if |centres| == 0 then None
    else
      var n := |centres| - 1;
      var last := SphereBox(centres[n], radii[n]);
      match BoundingBox(centres[..n], radii[..n])
      case None => Some(last)
      case Some(b) =>
        assert forall i :: 0 <= i < n ==> centres[..n][i] == centres[i] && radii[..n][i] == radii[i];
        Some(Hull(b, last))
  }

  /** A chain with the given spheres and a freshly computed box. */
  function Make(centres: seq<Vec3>, radii: seq<real>): (g: Spheres)
    requires |centres| == |radii|
    ensures g.WellFormed() && g.centres == centres && g.radii == radii
  {
    Spheres(centres, radii, BoundingBox(centres, radii))
  }

  /** The exposed form of a chain: the same centres, every radius grown by
      `width`, the box recomputed. The chain itself is a value and is not
      changed by this. */
  function Inflate(g: Spheres, width: real): (e: Spheres)
    requires g.WellFormed()
    ensures e.WellFormed() && e.Count() == g.Count()
    ensures e.centres == g.centres
    ensures forall i :: 0 <= i < g.Count() ==> e.radii[i] == g.radii[i] + width
  {
    Make(g.centres, seq(|g.radii|, i requires 0 <= i < |g.radii| => g.radii[i] + width))
  }

  /** Inflating by `width` and then by `-width` gives the chain back. */
  lemma InflateInverse(g: Spheres, width: real)
    requires g.WellFormed()
    ensures Inflate(Inflate(g, width), -width) == g
  {
    var e := Inflate(Inflate(g, width), -width);
    assert e.radii == g.radii;
  }
}

=== FILE: vectors.dfy ===
/** Optional values, used where the source either has a value or reports
    an error (the debug-build bound check) or has nothing to offer (an empty
    sphere chain has no bounding box). */
module Options {

  datatype Option<+T> = None | Some(value: T)
}

/** Three-dimensional vectors over the reals. The source works on
    `Vector3d<FLOAT>`; here every component is an exact `real`, so the
    algebra of the force law holds without rounding. */
module Vectors {

  datatype Vec3 = Vec3(x: real, y: real, z: real)

  function Min(a: real, b: real): real {
    if a <= b then a else b
  }

  function Max(a: real, b: real): real {
    if a <= b then b else a
  }

  const Zero: Vec3 := Vec3(0.0, 0.0, 0.0)

  function Add(a: Vec3, b: Vec3): Vec3 {
    Vec3(a.x + b.x, a.y + b.y, a.z + b.z)
  }

  function Sub(a: Vec3, b: Vec3): Vec3 {
    Vec3(a.x - b.x, a.y - b.y, a.z - b.z)
  }

  function Scale(k: real, v: Vec3): Vec3 {
    Vec3(k * v.x, k * v.y, k * v.z)
  }

  /** Component-wise division by a scalar, as `Vector3d::operator/=`. */
  function Div(v: Vec3, w: real): Vec3
    requires w != 0.0
  {
    Vec3(v.x / w, v.y / w, v.z / w)
  }

  function Dot(a: Vec3, b: Vec3): real {
    a.x * b.x + a.y * b.y + a.z * b.z
  }

  /** What `changeToUnitOrZero` leaves behind: the zero vector or a vector of
      length one. */
  predicate UnitOrZero(f: Vec3) {
    f == Zero || Dot(f, f) == 1.0
  }

  /** `v` lies on the line through the origin that `w` spans:
      `|w|^2 v == (v.w) w`. For a nonzero `w` this makes `v` a multiple of
      `w`; every vector lies on the line of the zero vector. */
  predicate Along(v: Vec3, w: Vec3) {
    Scale(Dot(w, w), v) == Scale(Dot(v, w), w)
  }

  /** The contract of `changeToUnitOrZero`, whose code is not part of this
      model, at one input `w`: zero stays zero (never not-a-number), any
      other vector becomes the vector of length one on the line of `w` and
      pointing the same way, that is `w / |w|`. */
  ghost predicate UnitOrZeroAt(unit: Vec3 -> Vec3, w: Vec3) {
    && (w == Zero ==> unit(w) == Zero)
    && (w != Zero ==> Dot(unit(w), unit(w)) == 1.0 && Dot(unit(w), w) > 0.0 && Along(unit(w), w))
  }

  /** The same contract at every input. */
  ghost predicate UnitOrZeroMap(unit: Vec3 -> Vec3) {
    forall w :: UnitOrZeroAt(unit, w)
  }

  /** The contract assumed of `std::exp`: positive and strictly increasing. */
  ghost predicate ExpLike(exp: real -> real) {
    && (forall t :: exp(t) > 0.0)
    && (forall s, t :: s < t ==> exp(s) < exp(t))
  }

  /** The part of `g` orthogonal to the direction `f`: `g - (f.g) f`. This is
      the projection-and-subtract step of the sliding force. */
  function Tangential(f: Vec3, g: Vec3): Vec3 {
    Sub(g, Scale(Dot(f, g), f))
  }

  /** Two points coincide exactly when their difference is zero. */
  lemma SubZero(a: Vec3, b: Vec3)
    ensures Sub(a, b) == Zero <==> a == b
  {
    if Sub(a, b) == Zero {
      assert a.x == b.x && a.y == b.y && a.z == b.z;
    }
  }

  /** Undoing an offset: `(v + d) - v` is `d`. */
  lemma SubAdd(v: Vec3, d: Vec3)
    ensures Sub(Add(v, d), v) == d
  {
  }

  /** Shifting the minuend shifts the difference. */
  lemma SubShift(o: Vec3, v: Vec3, x: Vec3)
    ensures Sub(Add(o, x), v) == Add(Sub(o, v), x)
  {
  }

  lemma ScaleZero(c: real)
    ensures Scale(c, Zero) == Zero
  {
  }

  lemma DotScaleLeft(k: real, u: Vec3, w: Vec3)
    ensures Dot(Scale(k, u), w) == k * Dot(u, w)
  {
    calc {
      Dot(Scale(k, u), w);
      (k * u.x) * w.x + (k * u.y) * w.y + (k * u.z) * w.z;
      k * (u.x * w.x + u.y * w.y + u.z * w.z);
    }
  }

  /** The squared length of `k u` is `k^2` times that of `u`. */
  lemma DotScaleBoth(k: real, u: Vec3)
    ensures Dot(Scale(k, u), Scale(k, u)) == k * k * Dot(u, u)
  {
    calc {
      Dot(Scale(k, u), Scale(k, u));
      (k * u.x) * (k * u.x) + (k * u.y) * (k * u.y) + (k * u.z) * (k * u.z);
      k * k * (u.x * u.x + u.y * u.y + u.z * u.z);
    }
  }

  lemma DotSubScale(f: Vec3, g: Vec3, c: real)
    ensures Dot(f, Sub(g, Scale(c, f))) == Dot(f, g) - c * Dot(f, f)
  {
    calc {
      Dot(f, Sub(g, Scale(c, f)));
      f.x * (g.x - c * f.x) + f.y * (g.y - c * f.y) + f.z * (g.z - c * f.z);
      (f.x * g.x + f.y * g.y + f.z * g.z) - c * (f.x * f.x + f.y * f.y + f.z * f.z);
    }
  }

  /** The tangential part is orthogonal to a unit-or-zero direction. */
  lemma TangentialOrthogonal(f: Vec3, g: Vec3)
    requires UnitOrZero(f)
    ensures Dot(f, Tangential(f, g)) == 0.0
  {
    DotSubScale(f, g, Dot(f, g));
  }

  lemma DotComm(a: Vec3, b: Vec3)
    ensures Dot(a, b) == Dot(b, a)
  {
  }

  /** The line equation `q u = p w`, multiplied through by `k`. */
  lemma LineScale(q: real, p: real, k: real, u: Vec3, w: Vec3)
    requires Scale(q, u) == Scale(p, w)
    ensures Scale(q, Scale(k, u)) == Scale(k * p, w)
  {
    ScaleScale(q, k, u);
    ScaleScale(k, q, u);
    assert q * k == k * q;
    ScaleScale(k, p, w);
  }

  /** Scaling twice is scaling by the product. */
  lemma ScaleScale(a: real, b: real, v: Vec3)
    ensures Scale(a, Scale(b, v)) == Scale(a * b, v)
  {
    assert a * (b * v.x) == (a * b) * v.x;
    assert a * (b * v.y) == (a * b) * v.y;
    assert a * (b * v.z) == (a * b) * v.z;
  }

  /** Multiplying equals by `k`, stated for the solver's benefit. */
  lemma MulEq(k: real, a: real, b: real)
    requires a == b
    ensures k * a == k * b
  {
  }

  /** A multiple of a vector on the line of `w` is on that line too. */
  lemma AlongScale(k: real, u: Vec3, w: Vec3)
    requires Along(u, w)
    ensures Along(Scale(k, u), w)
  {
    LineScale(Dot(w, w), Dot(u, w), k, u, w);
    DotScaleLeft(k, u, w);
  }

  lemma PositiveProduct(d: real, e: real)
    requires d > 0.0 && e > 0.0
    ensures d * e > 0.0
  {
  }

  lemma NonZeroProduct(a: real, b: real)
    requires a != 0.0 && b != 0.0
    ensures a * b != 0.0
  {
    if a > 0.0 && b > 0.0 {
      PositiveProduct(a, b);
    } else if a > 0.0 {
      PositiveProduct(a, -b);
      assert a * (-b) == -(a * b);
    } else if b > 0.0 {
      PositiveProduct(-a, b);
      assert (-a) * b == -(a * b);
    } else {
      PositiveProduct(-a, -b);
      assert (-a) * (-b) == a * b;
    }
  }

  /** A unit vector `f` on the line of `w` has `(f.w)^2 = |w|^2`. */
  lemma LineSquare(f: Vec3, w: Vec3)
    requires Dot(f, f) == 1.0 && Along(f, w)
    ensures Dot(w, w) == Dot(f, w) * Dot(f, w)
  {
    var q := Dot(w, w);
    var p := Dot(f, w);
    DotScaleLeft(q, f, f);
    DotScaleLeft(p, w, f);
    DotComm(w, f);
    assert Scale(q, f) == Scale(p, w);
  }

  /** One component of a unit vector `f` on the line of `w`: with
      `q = |w|^2 = (f.w)^2`, the line equation `q f = (f.w) w` gives
      `(f.w) f = w`. */
  lemma LineComponent(q: real, p: real, fi: real, wi: real)
    requires q > 0.0 && q == p * p && q * fi == p * wi
    ensures p * fi == wi
  {
    MulEq(p, q * fi, p * wi);
    assert q * (p * fi) == q * wi;
    Cancel(q, p * fi, wi);
  }

  lemma Cancel(q: real, a: real, b: real)
    requires q != 0.0 && q * a == q * b
    ensures a == b
  {
    assert q * (a - b) == 0.0;
  }

  /** One component of `LineRemainder`. */
  lemma RemainderComponent(q: real, p: real, k: real, fi: real, wi: real, ri: real)
    requires q > 0.0 && q == p * p && q * fi == p * wi && ri == k * wi - (k * p) * fi
    ensures ri == 0.0
  {
    LineComponent(q, p, fi, wi);
    MulEq(k, p * fi, wi);
  }

  /** With `q = p^2 > 0` and `q f = p w`, the multiple `k w` has no part
      left after removing `(k p) f`. */
  lemma LineRemainder(q: real, p: real, k: real, f: Vec3, w: Vec3)
    requires q > 0.0 && q == p * p && Scale(q, f) == Scale(p, w)
    ensures Sub(Scale(k, w), Scale(k * p, f)) == Zero
  {
    var r := Sub(Scale(k, w), Scale(k * p, f));
    RemainderComponent(q, p, k, f.x, w.x, r.x);
    RemainderComponent(q, p, k, f.y, w.y, r.y);
    RemainderComponent(q, p, k, f.z, w.z, r.z);
  }

  /** Motion along the line of `w` has no part tangential to the unit
      vector of `w`: for `f = w / |w|`, or `f = 0` when `w = 0`, the
      tangential part of any multiple of `w` is zero. */
  lemma TangentialOfLine(f: Vec3, w: Vec3, k: real)
    requires w == Zero ==> f == Zero
    requires w != Zero ==> Dot(f, f) == 1.0 && Dot(f, w) > 0.0 && Along(f, w)
    ensures Tangential(f, Scale(k, w)) == Zero
  {
    if w != Zero {
      var p := Dot(f, w);
      LineSquare(f, w);
      PositiveProduct(p, p);
      LineRemainder(Dot(w, w), p, k, f, w);
      assert Dot(f, Scale(k, w)) == k * p by {
        DotScaleLeft(k, w, f);
        DotComm(Scale(k, w), f);
        DotComm(w, f);
      }
    }
  }

  lemma DotAdd(f: Vec3, g: Vec3, h: Vec3)
    ensures Dot(f, Add(g, h)) == Dot(f, g) + Dot(f, h)
  {
  }

  /** Removing `(p + q) f` from `g + h` removes `p f` from `g` and `q f`
      from `h`. */
  lemma SubSplit(g: Vec3, h: Vec3, f: Vec3, p: real, q: real)
    ensures Sub(Add(g, h), Scale(p + q, f)) == Add(Sub(g, Scale(p, f)), Sub(h, Scale(q, f)))
  {
  }

  /** Taking the tangential part is linear in the vector split. */
  lemma TangentialAdd(f: Vec3, g: Vec3, h: Vec3)
    ensures Tangential(f, Add(g, h)) == Add(Tangential(f, g), Tangential(f, h))
  {
    DotAdd(f, g, h);
    SubSplit(g, h, f, Dot(f, g), Dot(f, h));
  }

  /** Adding motion along the line of `w` to `g` leaves the part of `g`
      tangential to the unit vector of `w` (or to zero, when `w` is zero)
      as it was. */
  lemma TangentialIgnoresLine(f: Vec3, w: Vec3, g: Vec3, k: real)
    requires w == Zero ==> f == Zero
    requires w != Zero ==> Dot(f, f) == 1.0 && Dot(f, w) > 0.0 && Along(f, w)
    ensures Tangential(f, Add(g, Scale(k, w))) == Tangential(f, g)
  {
    TangentialAdd(f, g, Scale(k, w));
    TangentialOfLine(f, w, k);
  }
}
